=== FILE: README.md ===
# Proof-bundle verifier and on-chain post filter, modelled in Dafny

This project models two pieces of a "proof of post" tool.

The **offline proof-bundle verifier** (`scripts/proofs/verify-bundle.js`) takes a
parsed JSON bundle and answers `{ok, reason}`. Once a verification path has its libraries loaded, no error escapes it: a thrown error becomes the rejection reason.
- A bundle is Cardano if any of `signatureHex`, `keyHex`, `payloadHex` is truthy.
- Otherwise it is Solana if any of `signatureBase58`, `pubkeyBase58`, `payloadUtf8` is truthy.
- Otherwise the format is unknown.

A Cardano bundle carries a CIP-8 signature. The verifier:
- decodes the COSE_Sign1 structure (section 4.2 of RFC 8152);
- rebuilds the `Signature1` Sig_structure, which is the bytes actually signed (section 4.4 of RFC 8152), as definite-length CBOR (section 3.1 of RFC 8949);
- takes the 32-byte Ed25519 key from label -2 of the COSE_Key (section 13.2 of RFC 8152);
- checks three things in order: the signature, then that BLAKE2b-224 of the key equals the payment key hash of the base or enterprise address (CIP-19), then that the signed payload equals the declared one.

A Solana bundle is checked by an Ed25519 signature over the UTF-8 payload. The public key text must then equal the address text.

The **on-chain post filter** (`scripts/onchain/fetch-cardano-posts.js`) scans transaction metadata for posts. A transaction contributes a post when:
- its metadata list is non-empty;
- the first item with label 674 holds valid post metadata (`type` "post", `app` "proof-of-post", non-empty `address`, `nonce` and `content`; each value may be split into chunks);
- the metadata names the queried address.

The posts are then sorted oldest first.

Modules:
- `Js` (`js.dfy`): bytes, thrown errors as `Result`, and truthiness of absent-or-string bundle fields.
- `Cbor` (`cbor.dfy`): the CBOR value tree, map lookup, and a definite-length encoder for byte strings, ASCII text strings and arrays, with a decoder and the round trip proved.
- `Cose` (`cose.dfy`): COSE_Sign1 shape checks, the Sig_structure, and COSE_Key public-key extraction.
- `CardanoAddress` (`address.dfy`): address parsing as the serialization library exposes it, and the payment key hash.
- `VerifyBundle` (`verify.dfy`): dispatch and the two verification paths. The libraries are function-valued fields of `Primitives`.
- `BundleProperties` (`verify_properties.dfy`): acceptance conditions, check order, failure reasons and what an accepted proof binds.
- `PostMetadata` (`metadata.dfy`): JSON values, JavaScript `String()` and `join`, `resolveChunked`, `isValidPostMetadata`.
- `CardanoPosts` (`posts.dfy`): post selection, collection over the scanned transactions, and the date sort.

## Model

| member | source | states |
|---|---|---|
| Js.Or | scripts/proofs/verify-bundle.js:36 | `a \|\| b` is truthy iff either operand is; it is the first operand when that one is truthy and the second otherwise |
| Js.MessageOr | scripts/proofs/verify-bundle.js:70 | `e?.message \|\| fallback` is never empty: it is the error's message when that is non-empty, otherwise the fallback |
| Cbor.Encode | scripts/proofs/verify-bundle.js:48 | the first byte of an encoding announces the value's major type (2 byte string, 3 text, 4 array), and a byte string's or text's content ends the encoding unchanged |
| Cbor.MapGet | scripts/proofs/verify-bundle.js:52 | `Map.get` on a decoded map yields nothing when no entry has the key, and otherwise the value of the last entry with that key |
| Cbor.HeadRoundTrip | scripts/proofs/verify-bundle.js:48 | the preferred head of a major type and argument decodes back to that major type, that argument and its own length, whatever follows it |
| Cbor.DecodeEncode | scripts/proofs/verify-bundle.js:48 | decoding the encoding of any byte string, ASCII text or array of these gives back the value and consumes exactly its encoding, whatever follows |
| Cbor.EncodeInjective | scripts/proofs/verify-bundle.js:48 | two values with the same encoding are equal |
| Cose.ParseSign1 | scripts/proofs/verify-bundle.js:43-46 | accepts exactly four-element arrays whose elements 0, 2 and 3 are byte strings; anything but a four-element array is "Bad COSE_Sign1", a four-element array of the wrong element types is "Malformed COSE_Sign1" |
| Cose.UnprotectedHeaderIgnored | scripts/proofs/verify-bundle.js:44 | element 1, the unprotected header, never changes the outcome of the shape check or the parts extracted |
| Cose.ToBeSigned | scripts/proofs/verify-bundle.js:48 | the signed bytes decode as the Sig_structure `["Signature1", protected, h'', payload]` and are longer than protected header and payload together |
| Cose.ToBeSignedInjective | scripts/proofs/verify-bundle.js:48 | distinct (protected header, payload) pairs never produce the same signed bytes |
| Cose.ExtractPubKey | scripts/proofs/verify-bundle.js:50-53 | a non-map key is "Bad COSE_Key"; for a map, a key is produced iff the value at label -2 is a byte string of exactly 32 bytes, and it is that value; otherwise "Missing pubkey" |
| Cose.PubKeyIgnoresOtherLabels | scripts/proofs/verify-bundle.js:52-53 | entries under labels other than -2, placed before or after, never change the extracted key |
| CardanoAddress.ParserChoice | scripts/proofs/verify-bundle.js:26-28 | for text starting with "addr" only the bech32 parser decides the address and its payment key hash; for any other text only hex decoding and the byte parser do |
| CardanoAddress.PaymentKeyHash | scripts/proofs/verify-bundle.js:23-34 | a hash is produced iff the address parses as a base or enterprise address with a key-hash payment credential, and it is that credential's hash; parse errors propagate; other shapes throw "Unsupported address"; a script credential throws |
| VerifyBundle.Catch | scripts/proofs/verify-bundle.js:69-71 | a completed check keeps its verdict; a thrown error becomes a rejection with the error's message or the fallback |
| VerifyBundle.Classify | scripts/proofs/verify-bundle.js:118-119 | Cardano iff a Cardano field is truthy; Solana iff no Cardano field and some Solana field is truthy; Unknown iff neither |
| VerifyBundle.Verify | scripts/proofs/verify-bundle.js:117-131 | every bundle gets a verdict whose reason is null iff it is accepted; an unknown format is "Unknown bundle format", otherwise exactly one path decides |
| VerifyBundle.CheckCardano | scripts/proofs/verify-bundle.js:41-68 | a Cardano check that completes without throwing yields a verdict whose reason is null iff it is accepted |
| VerifyBundle.VerifyCardano | scripts/proofs/verify-bundle.js:36-71 | the Cardano verdict, thrown errors included, has a null reason iff it is accepted, and a non-empty reason otherwise |
| VerifyBundle.CheckSolana | scripts/proofs/verify-bundle.js:86-93 | a Solana check that completes without throwing yields a verdict whose reason is null iff it is accepted |
| VerifyBundle.VerifySolana | scripts/proofs/verify-bundle.js:79-96 | the Solana verdict, thrown errors included, has a null reason iff it is accepted, and a non-empty reason otherwise |
| BundleProperties.CardanoTakesPriority | scripts/proofs/verify-bundle.js:118-128 | with any Cardano field truthy, the verdict is the Cardano one whatever the Solana fields hold |
| BundleProperties.UnknownFormatIndependentOfPrimitives | scripts/proofs/verify-bundle.js:121-124 | a bundle with no signalling field is rejected as "Unknown bundle format" without consulting any library |
| BundleProperties.CardanoMissingFieldsFirst | scripts/proofs/verify-bundle.js:36-39 | a missing address (`addressHex \|\| addressBech32 \|\| address`), payload, signature or key gives "Missing fields for Cardano bundle" before any decoding |
| BundleProperties.CardanoAcceptance | scripts/proofs/verify-bundle.js:55-68 | a Cardano bundle is accepted iff all fields are present, both structures decode, Ed25519 verifies over the Sig_structure bytes, BLAKE2b-224 of the key equals the address's payment key hash, and the signed payload equals the declared one |
| BundleProperties.CardanoSign1ShapeFailures | scripts/proofs/verify-bundle.js:42-46 | a decoded signature that is not a four-element array is rejected as "Bad COSE_Sign1"; a four-element array with non-byte-string elements 0, 2 or 3 as "Malformed COSE_Sign1" |
| BundleProperties.CardanoKeyFailures | scripts/proofs/verify-bundle.js:50-53 | after a good COSE_Sign1, a key that is not a map is "Bad COSE_Key", and a map without a 32-byte key at label -2 is "Missing pubkey" |
| BundleProperties.CardanoDecodeErrors | scripts/proofs/verify-bundle.js:41-70 | when CBOR decoding of the signature throws, or of the key after a good COSE_Sign1, the decoder's message is the reason, or "Verify error" when that message is empty |
| BundleProperties.CardanoCheckOrder | scripts/proofs/verify-bundle.js:55-70 | the first failing check decides: "Invalid signature" whatever the address and payload, then the key-hash mismatch whatever the payload, then "Payload mismatch"; a thrown error gives its message or "Verify error" |
| BundleProperties.UnsupportedAddressRejected | scripts/proofs/verify-bundle.js:29-33 | an address that is neither base nor enterprise is never accepted, and once the signature verifies the reason is "Unsupported address" |
| BundleProperties.CardanoPayloadBound | scripts/proofs/verify-bundle.js:66 | two accepted bundles with the same signature declare the same payload bytes |
| BundleProperties.CardanoAddressBound | scripts/proofs/verify-bundle.js:62-64 | two accepted bundles with the same key resolve to the same payment key hash |
| BundleProperties.SolanaAcceptance | scripts/proofs/verify-bundle.js:86-93 | a Solana bundle is accepted iff all fields are present, both base58 fields decode, Ed25519 verifies over the UTF-8 payload, and the public key text equals the address text |
| BundleProperties.SolanaMissingFieldsFirst | scripts/proofs/verify-bundle.js:79-85 | a missing payload, signature, public key or address (`addressBase58 \|\| address`) gives "Missing fields for Solana bundle" before any decoding |
| BundleProperties.SolanaCheckOrder | scripts/proofs/verify-bundle.js:86-96 | decoding errors and signature errors come first, then "Invalid signature", then "Public key does not match address"; a thrown error gives its message or "Verify failed" |
| BundleProperties.SolanaAddressMustBePubkey | scripts/proofs/verify-bundle.js:92 | replacing the address of an accepted Solana bundle by any other text is rejected as a key/address mismatch |
| BundleProperties.ReasonsClosed | scripts/proofs/verify-bundle.js:36-96 | when no library throws, every rejection reason is one of a fixed list: the verifier's own reason strings plus the TypeError text a script payment credential causes (lines 30-32) |
| PostMetadata.ToJsString | scripts/onchain/fetch-cardano-posts.js:46 | for a value that converts without throwing (`Stringifies`: no object with its own `toString`, at any depth of arrays), `String(v)` gives a string itself and a number its canonical decimal form (minus sign, digits without a leading zero, denoting the magnitude) |
| PostMetadata.IntToDecimal | scripts/onchain/fetch-cardano-posts.js:46 | an integer prints as a minus sign for negatives followed by canonical digits whose decimal value is its magnitude |
| PostMetadata.NatToDecimal | scripts/onchain/fetch-cardano-posts.js:46 | a natural number prints as digits without a leading zero whose decimal value is the number |
| PostMetadata.Join | scripts/onchain/fetch-cardano-posts.js:44 | `join('')` is the concatenation of the elements' renderings, null and undefined rendering as the empty string |
| PostMetadata.ResolveChunked | scripts/onchain/fetch-cardano-posts.js:43-47 | an array resolves to its elements' renderings concatenated, null and undefined to the empty string, any other value to `String(v)`: a string to itself, a number to its decimal form |
| PostMetadata.ChunksResolveToConcat | scripts/onchain/fetch-cardano-posts.js:44 | an array of string chunks resolves to their concatenation |
| PostMetadata.JoinChunks | scripts/onchain/fetch-cardano-posts.js:44 | `join('')` of string chunks is their concatenation |
| PostMetadata.ChunkingTransparent | scripts/onchain/fetch-cardano-posts.js:44-46 | two chunkings of the same text, and the unchunked text itself, resolve to the same string |
| PostMetadata.IsValidPostMetadata | scripts/onchain/fetch-cardano-posts.js:50 | anything that is not an object, null and undefined included, is not valid post metadata |
| PostMetadata.ValidationThrows | scripts/onchain/fetch-cardano-posts.js:49-56 | validation throws iff the metadata is an object and one of its five fields `type`, `app`, `address`, `nonce`, `content` does not convert to a string; all five are resolved before any is tested |
| PostMetadata.ValidPostMetadataIff | scripts/onchain/fetch-cardano-posts.js:49-57 | metadata is valid iff it is an object whose resolved `type` is "post", `app` is "proof-of-post", and `address`, `nonce` and `content` are non-empty |
| CardanoPosts.TxHash | scripts/onchain/fetch-cardano-posts.js:91 | the hash is a truthy `tx_hash`, else a truthy `hash`, else the listed entry itself; so it is falsy exactly when the entry is, and a non-object entry is its own hash |
| CardanoPosts.BlockTime | scripts/onchain/fetch-cardano-posts.js:116 | a post is dated exactly when the info is an object with a numeric `block_time`, and the date is that number |
| CardanoPosts.IsPostLabel | scripts/onchain/fetch-cardano-posts.js:109 | an item passes iff it is an object whose `label` prints as "674"; a passing item is truthy |
| CardanoPosts.FirstPostIndex | scripts/onchain/fetch-cardano-posts.js:109 | the index found has label 674 and no earlier item does; none is found iff no item has label 674 |
| CardanoPosts.FindThrows | scripts/onchain/fetch-cardano-posts.js:109 | the label search throws iff some item's `it && it.label` does not convert to a string and no earlier item has label 674 |
| CardanoPosts.SelectPost | scripts/onchain/fetch-cardano-posts.js:108-118 | a selected post names the queried address, has non-empty content and nonce, and carries the transaction's hash and block time |
| CardanoPosts.SelectPostIff | scripts/onchain/fetch-cardano-posts.js:108-115 | a transaction yields a post iff its metadata is a list whose first label-674 item holds valid metadata (`json_metadata \|\| metadata`) naming the queried address; the post's content and nonce are that metadata's |
| CardanoPosts.CollectPosts | scripts/onchain/fetch-cardano-posts.js:90-118 | the scan throws iff handling some listed transaction throws (`TxThrows`: a null entry; a truthy hash that does not convert to a string; a label searched, or a field of the first label-674 metadata, that does not convert; or an accepted post whose block time is outside the `Date` range); otherwise it collects no more posts than there are transactions, each naming the queried address |
| CardanoPosts.OwnToStringEndsScan | scripts/onchain/fetch-cardano-posts.js:49-56 | a label-674 item whose metadata `type` is an object with its own `toString` ends the whole scan with an error; with an empty `type` object instead, the transaction is merely not a post |
| CardanoPosts.CollectPostsIsFilter | scripts/onchain/fetch-cardano-posts.js:90-118 | the scan keeps exactly the posts the transactions yield, skipping falsy hashes, in scan order |
| CardanoPosts.CollectPostsMembers | scripts/onchain/fetch-cardano-posts.js:90-118 | a post is collected iff some transaction with a truthy hash yields it |
| CardanoPosts.CollectPostsInOrder | scripts/onchain/fetch-cardano-posts.js:90-117 | posts of earlier transactions come before posts of later ones |
| CardanoPosts.SortKey | scripts/onchain/fetch-cardano-posts.js:134-135 | an undated post has key 0; a dated post's key is a whole number of seconds in milliseconds, namely its block time |
| CardanoPosts.SortKeyOrder | scripts/onchain/fetch-cardano-posts.js:134-136 | for dated posts, the key order is the block-time order |
| CardanoPosts.InsertByDate | scripts/onchain/fetch-cardano-posts.js:133-137 | inserting into a date-ordered list keeps it ordered and adds exactly the one post |
| CardanoPosts.SortByDate | scripts/onchain/fetch-cardano-posts.js:133-137 | the result is in non-decreasing date order, a missing date counting as 0, and is a permutation of the input |
| CardanoPosts.InsertByDateStable | scripts/onchain/fetch-cardano-posts.js:133-137 | among posts with the same date, the inserted post goes first and the others keep their order |
| CardanoPosts.SortByDateStable | scripts/onchain/fetch-cardano-posts.js:133-137 | posts with the same date keep their relative input order |
| CardanoPosts.SortByDateKeepsSortedInput | scripts/onchain/fetch-cardano-posts.js:133-137 | a list already in date order is left unchanged |
| CardanoPosts.PostsForAddress | scripts/onchain/fetch-cardano-posts.js:132-137 | the printed list exists iff the scan does not throw; it is in date order, a permutation of the collected posts, and every post names the queried address |

Helpers without a row are compositions or definitions that the rowed members' contracts specify or are stated in terms of: `VerifyBundle.CardanoAddressField`, `VerifyBundle.DecodeSign1`, `VerifyBundle.DecodePubKey`, `VerifyBundle.SolanaAddressField`, `CardanoAddress.ParseAddress`, `CardanoAddress.KeyHashOf`, `CardanoPosts.PostMetadataOf`, `CardanoPosts.LabelOf`, `CardanoPosts.TxThrows` and `PostMetadata.Stringifies`.

## Left out

- Command-line handling, stdin, `JSON.parse`, console output and `process.exit` in both scripts: this is I/O glue. `scripts/proofs/verify-bundle.js:99-116,132-139` and `scripts/onchain/fetch-cardano-posts.js:59-74,139-149` are not part of this model.
- The HTTPS client, Blockfrost pagination, `sleep` pacing and the API-key lookup (`scripts/onchain/fetch-cardano-posts.js:11-41,75-89,93-107,121-130`): these are network and timing. The model takes the flat list of listed transactions, each with its metadata and info responses already parsed. A failed request is JSON `null`.
- The libraries (tweetnacl, blakejs, bs58, cbor, TextEncoder, `Buffer.from(…, 'hex')`, the Cardano serialization library) are kept abstract as function-valued fields of `VerifyBundle.Primitives`. Their internals are not modelled. BLAKE2b-224 is only known to return 28 bytes.
- Hex decoding is total and never throws. This follows the code: `Buffer.from(h, 'hex')` stops at the first invalid character and does not raise.
- Ed25519 verification may throw (tweetnacl rejects signatures and keys of the wrong size). The Cardano path never checks the signature's length, so that error reaches the `catch`.
- CBOR decoding is abstract and its result is a value tree with integers, byte strings, text strings, arrays, maps, tags and an opaque "other". A tagged COSE_Sign1 (tag 18) decodes to a tag, not an array, and is therefore "Bad COSE_Sign1", as in the code. Whether a CBOR map becomes a JavaScript `Map` or a plain object is the decoder's choice; a plain object is "Other" and so is "Bad COSE_Key", as in the code. Floating-point and big-integer map keys are not modelled.
- Cbor.Encode: only byte strings, ASCII text strings and arrays are encoded, because the Sig_structure needs nothing else. Non-ASCII text, maps and integers are not encoded.
- Bundle fields are modelled as absent or a string. A bundle field holding a number, object or array is not modelled (for example, `startsWith` on a non-string address would throw).
- The address header bits of CIP-19 are not decoded here. The library's classification into base, enterprise, pointer, reward and Byron addresses is taken as given.
- The bundle is assumed to be a non-null object. For a JSON `null` bundle, reading `bundle.signatureHex` (`scripts/proofs/verify-bundle.js:118`) throws outside any `try`, and `main().catch` prints the error and exits 1. `VerifyBundle.Bundle` is a record and cannot be null.
- Module loading is assumed to succeed. The `require` calls at `scripts/proofs/verify-bundle.js:17-19` run before the Cardano `try` and before the missing-field check. A failure there escapes to `main().catch`.
- The dynamic `import()` of the address library and of bs58/tweetnacl is not modelled. A failed import inside the Cardano `try` surfaces as a thrown parse error. In the Solana path the imports sit outside the `try`, and a failure there would end the process.
- JSON numbers in transaction metadata and info are modelled as unbounded integers printed in plain decimal. This matches JavaScript only for safe integers (|n| ≤ 2^53). Larger numbers lose digits or print in exponent form (`String(1e21)` is "1e+21"), and fractions are not modelled at all.
- `new Date(block_time * 1000).toISOString()` and `Date.parse` are replaced by the integer key `block_time * 1000`, or 0 for a post without a date. The ISO date text itself is not produced; the RangeError for a block time outside the `Date` range is modelled as a throw of the scan.
- `encodeURIComponent` throws a URIError on a string holding a lone surrogate, which `JSON.parse` can produce from a `\ud800` escape. Dafny strings hold only Unicode scalar values, so this throw is not modelled; the one for a hash that does not convert to a string is.

=== FILE: address.dfy ===
/** Cardano addresses as the verifier sees them through the serialization
    library: it only asks whether an address is a base or an enterprise address
    (CIP-19) and, if so, for the key hash of its payment credential. */
module CardanoAddress {
  import opened Js

  const Unsupported := "Unsupported address"

  /** The TypeError V8 raises when `.to_bytes()` is called on the `undefined`
      that `to_keyhash()` returns for a script credential. */
  const NoKeyHash := "Cannot read properties of undefined (reading 'to_bytes')"

  /** A payment or staking credential: a key hash or a script hash. */
  datatype Credential = KeyHash(hash: Bytes) | ScriptHash(hash: Bytes)

  /** The address shapes of CIP-19, as the library classifies them. */
  datatype Address =
    | Base(payment: Credential, stake: Credential)
    | Enterprise(payment: Credential)
    | Pointer(payment: Credential)
    | Reward(stake: Credential)
    | Byron

  /** The library's address parsers, which throw on text or bytes they reject. */
  datatype AddressParsers = AddressParsers(
    fromBech32: string -> Result<Address>,   // Address.from_bech32
    fromBytes: Bytes -> Result<Address>,     // Address.from_bytes
    hexDecode: string -> Bytes)              // Buffer.from(text, 'hex')

  /** Text starting with "addr" is read as bech32; anything else as hex bytes. */
  function ParseAddress(parsers: AddressParsers, text: string): Result<Address> {
    if StartsWith(text, "addr") then parsers.fromBech32(text)
    else parsers.fromBytes(parsers.hexDecode(text))
  }

  /** An address whose payment key hash the verifier can read. */
  predicate CarriesPaymentKeyHash(a: Address) {
    (a.Base? || a.Enterprise?) && a.payment.KeyHash?
  }

  /** The payment key hash of `text`: a base address is tried first, then an
      enterprise address; any other shape is rejected, and a script payment
      credential makes the library access throw. No address yields a default. */
  function PaymentKeyHash(parsers: AddressParsers, text: string): (r: Result<Bytes>)
    ensures r.Ok? <==> ParseAddress(parsers, text).Ok? && CarriesPaymentKeyHash(ParseAddress(parsers, text).value)
    ensures r.Ok? ==> r.value == ParseAddress(parsers, text).value.payment.hash
    ensures ParseAddress(parsers, text).Throw? ==> r == Throw(ParseAddress(parsers, text).error)
    ensures ParseAddress(parsers, text).Ok? ==>
              var a := ParseAddress(parsers, text).value;
              (!(a.Base? || a.Enterprise?) ==> r == Throw(Exn(Unsupported)))
              && ((a.Base? || a.Enterprise?) && a.payment.ScriptHash? ==> r == Throw(Exn(NoKeyHash)))
  {
    var a :- ParseAddress(parsers, text);
    match a
    case Base(payment, _) => KeyHashOf(payment)
    case Enterprise(payment) => KeyHashOf(payment)
    case _ => Throw(Exn(Unsupported))
  }

  /** Which parser is consulted: for text starting with "addr" only the bech32
      parser matters, for any other text only hex decoding and the byte parser.
      Two sets of parsers that agree on the one consulted give the same address
      and the same payment key hash. */
  lemma ParserChoice(q: AddressParsers, r: AddressParsers, text: string)
    ensures (StartsWith(text, "addr") && q.fromBech32(text) == r.fromBech32(text))
            ==> ParseAddress(q, text) == ParseAddress(r, text) && PaymentKeyHash(q, text) == PaymentKeyHash(r, text)
    ensures (&& !StartsWith(text, "addr")
             && (forall s :: q.hexDecode(s) == r.hexDecode(s))
             && (forall bs :: q.fromBytes(bs) == r.fromBytes(bs)))
            ==> ParseAddress(q, text) == ParseAddress(r, text) && PaymentKeyHash(q, text) == PaymentKeyHash(r, text)
  {
  }

  /** `cred.to_keyhash().to_bytes()` */
  function KeyHashOf(c: Credential): (r: Result<Bytes>)
  {
    match c
    case KeyHash(h) => Ok(h)
    case ScriptHash(_) => Throw(Exn(NoKeyHash))
  }
}

=== FILE: cbor.dfy ===
/** CBOR values as the `cbor` package hands them to the verifier, and a concrete
    definite-length encoder for the major types the Signature1 structure uses
    (byte strings, text strings and arrays; section 3.1 of RFC 8949), with a
    decoder for the same subset that undoes it. */
module Cbor {
  import opened Js

  /** 2^64: the largest length a CBOR head can carry is one less than this. */
  const Two64: int := 0x1_0000_0000_0000_0000

  /** A byte string a CBOR decoder can produce: its length fits a CBOR head. */
  type ByteString = b: Bytes | |b| < Two64

  /** A decoded CBOR data item, in the shapes the verifier distinguishes. */
  datatype Value =
    | Int(i: int)                           // major types 0 and 1 (a JS number)
    | ByteStr(bytes: ByteString)            // major type 2 (a Buffer)
    | TextStr(text: string)                 // major type 3 (a JS string)
    | Arr(items: seq<Value>)                // major type 4 (a JS Array)
    | KeyedMap(entries: seq<(Value, Value)>)  // major type 5 decoded as a JS Map, in wire order
    | Tag(tag: nat, item: Value)            // major type 6 (a Tagged object)
    | Other                                 // anything else: simple values, floats, plain objects

  // ---------------------------------------------------------------------------
  // Map lookup

  /** The values bound to `key`, in wire order: an independent description of
      what a JS Map built from `entries` remembers about `key`. */
  function ValuesFor(entries: seq<(Value, Value)>, key: Value): (vs: seq<Value>)
    ensures |vs| <= |entries|
  {
    if entries == [] then []
    else (if entries[0].0 == key then [entries[0].1] else []) + ValuesFor(entries[1..], key)
  }

  /** `map.get(key)`: a JS Map built entry by entry keeps the last value set for a key. */
  function MapGet(entries: seq<(Value, Value)>, key: Value): (r: Option<Value>)
    ensures var vs := ValuesFor(entries, key);
            r == if vs == [] then None else Some(vs[|vs| - 1])
  {
    if entries == [] then None
    else
      ValuesForSnoc(entries, key);
      if entries[|entries| - 1].0 == key then Some(entries[|entries| - 1].1)
    else MapGet(entries[..|entries| - 1], key)
  }

  lemma ValuesForSnoc(entries: seq<(Value, Value)>, key: Value)
    requires entries != []
    ensures var n := |entries| - 1;
            ValuesFor(entries, key)
            == ValuesFor(entries[..n], key) + (if entries[n].0 == key then [entries[n].1] else [])
  {
    var n := |entries| - 1;
    assert entries == entries[..n] + [entries[n]];
    ValuesForAppend(entries[..n], [entries[n]], key);
    assert [entries[n]][1..] == [];
  }

  /** Looking a key up in two runs of entries, one after the other. */
  lemma {:induction false} ValuesForAppend(a: seq<(Value, Value)>, b: seq<(Value, Value)>, key: Value)
    ensures ValuesFor(a + b, key) == ValuesFor(a, key) + ValuesFor(b, key)
  {
    if a != [] {
      assert (a + b)[1..] == a[1..] + b;
      ValuesForAppend(a[1..], b, key);
    } else {
      assert a + b == b;
    }
  }

  // ---------------------------------------------------------------------------
  // Big-endian unsigned integers

  function Pow256(k: nat): (r: nat)
    ensures r >= 1
  {
    if k == 0 then 1 else 256 * Pow256(k - 1)
  }

  lemma Pow256Values()
    ensures Pow256(1) == 0x100 && Pow256(2) == 0x1_0000
    ensures Pow256(4) == 0x1_0000_0000 && Pow256(8) == Two64
  {
  }

  /** `n` as exactly `k` big-endian bytes. */
  function ToBigEndian(n: nat, k: nat): (r: Bytes)
    requires n < Pow256(k)
    ensures |r| == k
  {
    if k == 0 then [] else ToBigEndian(n / 256, k - 1) + [n % 256]
  }

  /** The unsigned integer that big-endian bytes `bs` denote. */
  function FromBigEndian(bs: Bytes): (n: nat)
    ensures n < Pow256(|bs|)
  {
    if bs == [] then 0 else FromBigEndian(bs[..|bs| - 1]) * 256 + bs[|bs| - 1]
  }

  lemma {:induction false} BigEndianRoundTrip(n: nat, k: nat)
    requires n < Pow256(k)
    ensures FromBigEndian(ToBigEndian(n, k)) == n
  {
    if k > 0 {
      var hi := ToBigEndian(n / 256, k - 1);
      assert (hi + [n % 256])[..k - 1] == hi;
      BigEndianRoundTrip(n / 256, k - 1);
    }
  }

  // ---------------------------------------------------------------------------
  // Heads: the initial byte and the argument that follows it

  /** The preferred (shortest) head for major type `major` and argument `n`. */
  function Head(major: nat, n: nat): (r: Bytes)
    requires major < 8 && n < Two64
    ensures 1 <= |r| <= 9
    ensures r[0] / 32 == major
  {
    if n < 24 then
      InitialByte(major, n);
      [major * 32 + n]
    else
      var ai := LongArgumentInfo(n);
      InitialByte(major, ai);
      [major * 32 + ai] + ToBigEndian(n, ArgumentSize(ai))
  }

  /** The additional information announcing the fewest argument bytes that hold `n`. */
  function LongArgumentInfo(n: nat): (ai: nat)
    requires 24 <= n < Two64
    ensures 24 <= ai <= 27 && n < Pow256(ArgumentSize(ai)) && ArgumentSize(ai) <= 8
  {
    Pow256Values();
    if n < 0x100 then 24 else if n < 0x1_0000 then 25 else if n < 0x1_0000_0000 then 26 else 27
  }

  datatype HeadInfo = HeadInfo(major: nat, arg: nat, size: nat)

  /** How many argument bytes follow an initial byte whose low five bits are `ai`. */
  function ArgumentSize(ai: nat): (k: nat)
    requires 24 <= ai <= 27
    ensures Pow256(k) <= Two64 && k <= 8
  {
    Pow256Values();
    if ai == 24 then 1 else if ai == 25 then 2 else if ai == 26 then 4 else 8
  }

  function DecodeHead(s: Bytes): (r: Option<HeadInfo>)
    ensures r.Some? ==> r.value.major < 8 && r.value.arg < Two64 && 1 <= r.value.size <= |s|
  {
    if |s| == 0 then None
    else
      var ai := s[0] % 32;
      if ai < 24 then Some(HeadInfo(s[0] / 32, ai, 1))
      else if ai <= 27 then
        var k := ArgumentSize(ai);
        if |s| < 1 + k then None
        else Some(HeadInfo(s[0] / 32, FromBigEndian(s[1..1 + k]), 1 + k))
      else None
  }

  lemma HeadRoundTrip(major: nat, n: nat, rest: Bytes)
    requires major < 8 && n < Two64
    ensures DecodeHead(Head(major, n) + rest) == Some(HeadInfo(major, n, |Head(major, n)|))
  {
    if n < 24 {
      InitialByte(major, n);
      ShortHeadRoundTrip(major, n, major * 32 + n, rest);
    } else {
      var ai := LongArgumentInfo(n);
      InitialByte(major, ai);
      LongHeadRoundTrip(major, n, ai, major * 32 + ai, rest);
    }
  }

  /** A head whose argument sits in the initial byte. */
  lemma ShortHeadRoundTrip(major: nat, n: nat, initial: byte, rest: Bytes)
    requires major < 8 && n < 24 && initial == major * 32 + n
    ensures DecodeHead([initial] + rest) == Some(HeadInfo(major, n, 1))
  {
    InitialByte(major, n);
    assert ([initial] + rest)[0] == initial;
  }

  /** The initial byte packs the major type above five bits of additional information. */
  lemma InitialByte(major: nat, ai: nat)
    requires major < 8 && ai < 32
    ensures major * 32 + ai < 256
    ensures (major * 32 + ai) % 32 == ai && (major * 32 + ai) / 32 == major
  {
  }

  /** A head whose argument follows the initial byte in 1, 2, 4 or 8 bytes. */
  lemma LongHeadRoundTrip(major: nat, n: nat, ai: nat, initial: byte, rest: Bytes)
    requires major < 8 && 24 <= ai <= 27 && n < Pow256(ArgumentSize(ai))
    requires initial == major * 32 + ai
    ensures var h := [initial] + ToBigEndian(n, ArgumentSize(ai));
            DecodeHead(h + rest) == Some(HeadInfo(major, n, |h|))
  {
    InitialByte(major, ai);
    var k := ArgumentSize(ai);
    var h := [initial] + ToBigEndian(n, k);
    var s := h + rest;
    assert s[0] == initial;
    assert s[1..1 + k] == ToBigEndian(n, k);
    BigEndianRoundTrip(n, k);
  }

  // ---------------------------------------------------------------------------
  // ASCII text

  predicate IsAscii(t: string) {
    forall i :: 0 <= i < |t| ==> t[i] as int < 128
  }

  predicate IsAsciiBytes(bs: Bytes) {
    forall i :: 0 <= i < |bs| ==> bs[i] < 128
  }

  /** UTF-8 of an ASCII string: one byte per character. */
  function AsciiBytes(t: string): (bs: Bytes)
    requires IsAscii(t)
    ensures |bs| == |t| && IsAsciiBytes(bs)
    ensures forall i :: 0 <= i < |t| ==> bs[i] == t[i] as int
  {
    if t == [] then [] else [t[0] as int] + AsciiBytes(t[1..])
  }

  function AsciiText(bs: Bytes): (t: string)
    requires IsAsciiBytes(bs)
    ensures |t| == |bs|
    ensures forall i :: 0 <= i < |bs| ==> t[i] as int == bs[i]
  {
    if bs == [] then [] else [bs[0] as char] + AsciiText(bs[1..])
  }

  // ---------------------------------------------------------------------------
  // Encoding

  /** The values the encoder handles: byte strings, ASCII text strings and arrays of them. */
  predicate Encodable(v: Value) {
    match v
    case ByteStr(_) => true
    case TextStr(t) => |t| < Two64 && IsAscii(t)
    case Arr(items) => |items| < Two64 && forall i :: 0 <= i < |items| ==> Encodable(items[i])
    case _ => false
  }

  /** The major type announcing a value of each encodable kind. */
  function MajorType(v: Value): nat
    requires Encodable(v)
  {
    match v
    case ByteStr(_) => 2
    case TextStr(_) => 3
    case Arr(_) => 4
  }

  /** The definite-length, preferred-serialization encoding of `v`: its first
      byte announces the value's major type, and a byte string's or text's
      content closes the encoding unchanged. */
  function Encode(v: Value): (r: Bytes)
    requires Encodable(v)
    ensures |r| > 0 && r[0] / 32 == MajorType(v)
    ensures v.ByteStr? ==> |r| > |v.bytes| && r[|r| - |v.bytes|..] == v.bytes
    ensures v.TextStr? ==> |r| > |v.text| && r[|r| - |v.text|..] == AsciiBytes(v.text)
    decreases v, 0
  {
    match v
    case ByteStr(b) => Head(2, |b|) + b
    case TextStr(t) => Head(3, |t|) + AsciiBytes(t)
    case Arr(items) => Head(4, |items|) + EncodeItems(items)
  }

  function EncodeItems(items: seq<Value>): (r: Bytes)
    requires forall i :: 0 <= i < |items| ==> Encodable(items[i])
    decreases items, 1
  {
    if items == [] then [] else Encode(items[0]) + EncodeItems(items[1..])
  }

  // ---------------------------------------------------------------------------
  // Decoding the same subset

  /** Decodes one data item at the front of `s`, giving the item and the number
      of bytes it occupies. */
  function Decode(s: Bytes): (r: Option<(Value, nat)>)
    ensures r.Some? ==> 0 < r.value.1 <= |s|
    decreases |s|, 0
  {
    match DecodeHead(s)
    case None => None
    case Some(h) =>
      match DecodeContent(h.major, h.arg, s[h.size..])
      case None => None
      case Some((v, used)) => Some((v, h.size + used))
  }

  /** Decodes what follows a head of major type `major` with argument `arg`. */
  function DecodeContent(major: nat, arg: nat, body: Bytes): (r: Option<(Value, nat)>)
    requires arg < Two64
    ensures r.Some? ==> r.value.1 <= |body|
    decreases |body|, 2
  {
    if major == 2 then
      if arg <= |body| then Some((ByteStr(body[..arg]), arg)) else None
    else if major == 3 then
      if arg <= |body| && IsAsciiBytes(body[..arg]) then Some((TextStr(AsciiText(body[..arg])), arg)) else None
    else if major == 4 then
      match DecodeItems(body, arg)
      case None => None
      case Some((items, used)) => Some((Arr(items), used))
    else None
  }

  /** Decodes `count` consecutive data items at the front of `s`. */
  function DecodeItems(s: Bytes, count: nat): (r: Option<(seq<Value>, nat)>)
    ensures r.Some? ==> |r.value.0| == count && r.value.1 <= |s|
    decreases |s|, 1, count
  {
    if count == 0 then Some(([], 0))
    else
      match Decode(s)
      case None => None
      case Some((first, used)) =>
        match DecodeItems(s[used..], count - 1)
        case None => None
        case Some((others, more)) => Some(([first] + others, used + more))
  }

  lemma DecodeAfterHead(s: Bytes, h: HeadInfo, v: Value, used: nat, total: nat)
    requires DecodeHead(s) == Some(h)
    requires DecodeContent(h.major, h.arg, s[h.size..]) == Some((v, used))
    requires total == h.size + used
    ensures Decode(s) == Some((v, total))
  {
  }

  /** A preferred head followed by content that decodes under it. */
  lemma DecodeHeadThen(major: nat, n: nat, body: Bytes, v: Value, used: nat, s: Bytes, total: nat)
    requires major < 8 && n < Two64
    requires DecodeContent(major, n, body) == Some((v, used))
    requires s == Head(major, n) + body && total == |Head(major, n)| + used
    ensures Decode(s) == Some((v, total))
  {
    HeadRoundTrip(major, n, body);
    assert s[|Head(major, n)|..] == body;
    DecodeAfterHead(s, HeadInfo(major, n, |Head(major, n)|), v, used, total);
  }

  lemma DecodeItemsCons(s: Bytes, count: nat, first: Value, used: nat, others: seq<Value>, more: nat)
    requires count > 0
    requires Decode(s) == Some((first, used))
    requires DecodeItems(s[used..], count - 1) == Some((others, more))
    ensures DecodeItems(s, count) == Some(([first] + others, used + more))
  {
  }

  /** Regrouping an encoding followed by what comes after it, at the exact terms
      the round-trip proofs match on. */
  lemma ConcatAssoc(a: Bytes, b: Bytes, c: Bytes)
    ensures (a + b) + c == a + (b + c)
    ensures |a + b| == |a| + |b|
  {
  }

  lemma DecodeContentByteString(b: ByteString, rest: Bytes)
    ensures DecodeContent(2, |b|, b + rest) == Some((ByteStr(b), |b|))
  {
    assert (b + rest)[..|b|] == b;
  }

  lemma DecodeContentTextString(t: string, rest: Bytes)
    requires Encodable(TextStr(t))
    ensures DecodeContent(3, |t|, AsciiBytes(t) + rest) == Some((TextStr(t), |AsciiBytes(t)|))
  {
    var a := AsciiBytes(t);
    assert (a + rest)[..|a|] == a;
    assert AsciiText(a) == t;
  }

  lemma DecodeContentArray(items: seq<Value>, e: Bytes, rest: Bytes)
    requires |items| < Two64
    requires DecodeItems(e + rest, |items|) == Some((items, |e|))
    ensures DecodeContent(4, |items|, e + rest) == Some((Arr(items), |e|))
  {
  }

  /** Decoding undoes encoding, whatever follows the encoded item. */
  lemma DecodeEncodeByteString(b: ByteString, rest: Bytes)
    ensures Decode(Encode(ByteStr(b)) + rest) == Some((ByteStr(b), |Encode(ByteStr(b))|))
  {
    var h := Head(2, |b|);
    assert Encode(ByteStr(b)) == h + b;
    ConcatAssoc(h, b, rest);
    DecodeContentByteString(b, rest);
    DecodeHeadThen(2, |b|, b + rest, ByteStr(b), |b|, Encode(ByteStr(b)) + rest, |Encode(ByteStr(b))|);
  }

  lemma DecodeEncodeTextString(t: string, rest: Bytes)
    requires Encodable(TextStr(t))
    ensures Decode(Encode(TextStr(t)) + rest) == Some((TextStr(t), |Encode(TextStr(t))|))
  {
    var h := Head(3, |t|);
    var a := AsciiBytes(t);
    assert Encode(TextStr(t)) == h + a;
    ConcatAssoc(h, a, rest);
    DecodeContentTextString(t, rest);
    DecodeHeadThen(3, |t|, a + rest, TextStr(t), |a|, Encode(TextStr(t)) + rest, |Encode(TextStr(t))|);
  }

  lemma DecodeEncodeArray(items: seq<Value>, rest: Bytes)
    requires Encodable(Arr(items))
    requires DecodeItems(EncodeItems(items) + rest, |items|) == Some((items, |EncodeItems(items)|))
    ensures Decode(Encode(Arr(items)) + rest) == Some((Arr(items), |Encode(Arr(items))|))
  {
    var h := Head(4, |items|);
    var e := EncodeItems(items);
    assert Encode(Arr(items)) == h + e;
    ConcatAssoc(h, e, rest);
    DecodeContentArray(items, e, rest);
    DecodeHeadThen(4, |items|, e + rest, Arr(items), |e|, Encode(Arr(items)) + rest, |Encode(Arr(items))|);
  }

  lemma {:induction false} DecodeEncode(v: Value, rest: Bytes)
    requires Encodable(v)
    ensures Decode(Encode(v) + rest) == Some((v, |Encode(v)|))
    decreases v, 0
  {
    match v
    case ByteStr(b) =>
      DecodeEncodeByteString(b, rest);
    case TextStr(t) =>
      DecodeEncodeTextString(t, rest);
    case Arr(items) =>
      DecodeItemsEncodeItems(items, rest);
      DecodeEncodeArray(items, rest);
  }

  lemma {:induction false} DecodeItemsEncodeItems(items: seq<Value>, rest: Bytes)
    requires forall i :: 0 <= i < |items| ==> Encodable(items[i])
    ensures DecodeItems(EncodeItems(items) + rest, |items|) == Some((items, |EncodeItems(items)|))
    decreases items, 1
  {
    if items != [] {
      var e0, e1 := Encode(items[0]), EncodeItems(items[1..]);
      DecodeEncode(items[0], e1 + rest);
      DecodeItemsEncodeItems(items[1..], rest);
      EncodeItemsCons(items);
      ConcatAssoc(e0, e1, rest);
      ConsSplit(items);
      DecodeItemsConcat(e0, e1, rest, |items|, items[0], items[1..], EncodeItems(items) + rest, items, |EncodeItems(items)|);
    }
  }

  lemma ConsSplit(items: seq<Value>)
    requires items != []
    ensures [items[0]] + items[1..] == items
  {
  }

  lemma EncodeItemsCons(items: seq<Value>)
    requires items != [] && forall i :: 0 <= i < |items| ==> Encodable(items[i])
    ensures EncodeItems(items) == Encode(items[0]) + EncodeItems(items[1..])
  {
  }

  /** Decoding one item and then `count` more from consecutive encodings. */
  lemma DecodeItemsConcat(e0: Bytes, e1: Bytes, rest: Bytes, count: nat, first: Value, others: seq<Value>,
                           s: Bytes, items: seq<Value>, used: nat)
    requires count > 0
    requires Decode(e0 + (e1 + rest)) == Some((first, |e0|))
    requires DecodeItems(e1 + rest, count - 1) == Some((others, |e1|))
    requires s == e0 + (e1 + rest) && items == [first] + others && used == |e0| + |e1|
    ensures DecodeItems(s, count) == Some((items, used))
  {
    assert s[|e0|..] == e1 + rest;
    DecodeItemsCons(s, count, first, |e0|, others, |e1|);
  }

  /** The encoding is injective: distinct values never share an encoding. */
  lemma EncodeInjective(v: Value, w: Value)
    requires Encodable(v) && Encodable(w)
    requires Encode(v) == Encode(w)
    ensures v == w
  {
    DecodeEncode(v, []);
    DecodeEncode(w, []);
    assert Encode(v) + [] == Encode(v);
    assert Encode(w) + [] == Encode(w);
  }
}

=== FILE: cose.dfy ===
/** The two COSE structures a CIP-8 proof carries: the COSE_Sign1 message
    (section 4.2 of RFC 8152), with the Sig_structure its signature covers
    (section 4.4), and the COSE_Key holding the OKP public key (section 13.2). */
module Cose {
  import opened Js
  import opened Cbor

  const BadSign1 := "Bad COSE_Sign1"
  const MalformedSign1 := "Malformed COSE_Sign1"
  const BadKey := "Bad COSE_Key"
  const MissingPubKey := "Missing pubkey"

  /** The COSE_Key label of the OKP `x` parameter: the public key itself. */
  const PubKeyLabel: Value := Int(-2)

  /** The elements of a COSE_Sign1 array that the verifier reads. The unprotected
      header, element 1, is never looked at. */
  datatype Sign1 = Sign1(protectedHeader: ByteString, payload: ByteString, signature: ByteString)

  predicate IsFourArray(v: Value) {
    v.Arr? && |v.items| == 4
  }

  /** A four-element array whose protected header, payload and signature are byte strings. */
  predicate IsSign1Shape(v: Value) {
    IsFourArray(v) && v.items[0].ByteStr? && v.items[2].ByteStr? && v.items[3].ByteStr?
  }

  /** Reads a decoded COSE_Sign1, throwing as the verifier does when its shape is wrong. */
  function ParseSign1(v: Value): (r: Result<Sign1>)
    ensures r.Ok? <==> IsSign1Shape(v)
    ensures r.Ok? ==> r.value == Sign1(v.items[0].bytes, v.items[2].bytes, v.items[3].bytes)
    ensures !IsFourArray(v) ==> r == Throw(Exn(BadSign1))
    ensures IsFourArray(v) && !IsSign1Shape(v) ==> r == Throw(Exn(MalformedSign1))
  {
    if !v.Arr? || |v.items| != 4 then Throw(Exn(BadSign1))
    else if !v.items[0].ByteStr? || !v.items[2].ByteStr? || !v.items[3].ByteStr? then Throw(Exn(MalformedSign1))
    else Ok(Sign1(v.items[0].bytes, v.items[2].bytes, v.items[3].bytes))
  }

  /** Whatever the unprotected header holds, parsing gives the same outcome. */
  lemma UnprotectedHeaderIgnored(h0: Value, u1: Value, u2: Value, p: Value, s: Value)
    ensures ParseSign1(Arr([h0, u1, p, s])) == ParseSign1(Arr([h0, u2, p, s]))
  {
  }

  /** The Sig_structure for a single signer with empty external data:
      ["Signature1", body_protected, external_aad, payload]. */
  function SigStructure(protectedHeader: ByteString, payload: ByteString): (v: Value)
    ensures Encodable(v)
  {
    var v := Arr([TextStr("Signature1"), ByteStr(protectedHeader), ByteStr([]), ByteStr(payload)]);
    assert forall i :: 0 <= i < |v.items| ==> Encodable(v.items[i]);
    v
  }

  /** The bytes a COSE_Sign1 signature covers: the encoded Sig_structure. They
      decode back to the Sig_structure, so they determine the protected header
      and the payload, and they are strictly longer than the payload alone. */
  function ToBeSigned(protectedHeader: ByteString, payload: ByteString): (tbs: Bytes)
    ensures Decode(tbs) == Some((SigStructure(protectedHeader, payload), |tbs|))
    ensures |tbs| > |protectedHeader| + |payload|
  {
    var v := SigStructure(protectedHeader, payload);
    var tbs := Encode(v);
    DecodeEncode(v, []);
    assert tbs + [] == tbs;
    SigStructureLength(protectedHeader, payload);
    tbs
  }

  lemma SigStructureLength(protectedHeader: ByteString, payload: ByteString)
    ensures |Encode(SigStructure(protectedHeader, payload))| > |protectedHeader| + |payload|
  {
    var items := SigStructure(protectedHeader, payload).items;
    assert EncodeItems(items[3..]) == Encode(items[3]) + EncodeItems([]);
    assert EncodeItems(items[2..]) == Encode(items[2]) + EncodeItems(items[3..]);
    assert EncodeItems(items[1..]) == Encode(items[1]) + EncodeItems(items[2..]);
  }

  /** Two proofs sign the same bytes only if they carry the same protected
      header and the same payload. */
  lemma {:induction false} ToBeSignedInjective(h1: ByteString, p1: ByteString, h2: ByteString, p2: ByteString)
    requires ToBeSigned(h1, p1) == ToBeSigned(h2, p2)
    ensures h1 == h2 && p1 == p2
  {
    assert SigStructure(h1, p1) == SigStructure(h2, p2);
    assert SigStructure(h1, p1).items[1] == SigStructure(h2, p2).items[1];
    assert SigStructure(h1, p1).items[3] == SigStructure(h2, p2).items[3];
  }

  /** Reads the 32-byte OKP public key out of a decoded COSE_Key. Labels other
      than -2 (key type, algorithm, curve) are not checked. */
  function ExtractPubKey(v: Value): (r: Result<ByteString>)
    ensures !v.KeyedMap? ==> r == Throw(Exn(BadKey))
    ensures v.KeyedMap? ==>
              (r.Ok? <==> exists pub: ByteString :: MapGet(v.entries, PubKeyLabel) == Some(ByteStr(pub)) && |pub| == 32)
    ensures v.KeyedMap? && r.Ok? ==> MapGet(v.entries, PubKeyLabel) == Some(ByteStr(r.value)) && |r.value| == 32
    ensures v.KeyedMap? && r.Throw? ==> r.error == Exn(MissingPubKey)
  {
    if !v.KeyedMap? then Throw(Exn(BadKey))
    else
      match MapGet(v.entries, PubKeyLabel)
      case Some(ByteStr(pub)) => if |pub| == 32 then Ok(pub) else Throw(Exn(MissingPubKey))
      case _ => Throw(Exn(MissingPubKey))
  }

  lemma {:induction false} ValuesForNone(e: seq<(Value, Value)>, key: Value)
    requires forall i :: 0 <= i < |e| ==> e[i].0 != key
    ensures ValuesFor(e, key) == []
  {
    if e != [] {
      ValuesForNone(e[1..], key);
    }
  }

  /** Entries under labels other than -2, before or after the others, never
      change which public key is extracted. */
  lemma PubKeyIgnoresOtherLabels(e: seq<(Value, Value)>, before: seq<(Value, Value)>, after: seq<(Value, Value)>)
    requires forall i :: 0 <= i < |before| ==> before[i].0 != PubKeyLabel
    requires forall i :: 0 <= i < |after| ==> after[i].0 != PubKeyLabel
    ensures ExtractPubKey(KeyedMap(before + e + after)) == ExtractPubKey(KeyedMap(e))
  {
    ValuesForNone(before, PubKeyLabel);
    ValuesForNone(after, PubKeyLabel);
    ValuesForAppend(before, e, PubKeyLabel);
    ValuesForAppend(before + e, after, PubKeyLabel);
    assert ValuesFor(before + e + after, PubKeyLabel) == ValuesFor(e, PubKeyLabel);
  }
}

=== FILE: js.dfy ===
/** JavaScript notions the verifier and the post filter rely on: bytes as held in
    a Buffer, thrown exceptions, optional values, and the truthiness of string
    fields read from a parsed JSON bundle. */
module Js {

  /** One octet of a Node.js Buffer or Uint8Array. */
  type byte = x: int | 0 <= x < 256

  type Bytes = seq<byte>

  /** A thrown JavaScript error. The empty message stands for an error whose
      `message` is missing or empty, which `e?.message || fallback` treats alike. */
  datatype Exn = Exn(message: string)

  datatype Option<+T> = None | Some(value: T)

  /** The outcome of a call that either returns a value or throws. */
  datatype Result<+T> = Ok(value: T) | Throw(error: Exn) {

    predicate IsFailure() {
      Throw?
    }

    function PropagateFailure<U>(): Result<U>
      requires Throw?
    {
      Throw(error)
    }

    function Extract(): T
      requires Ok?
    {
      value
    }
  }

  /** A property of a parsed JSON bundle: absent (`undefined`) or a string.
      The verifier only ever reads its fields as text (`startsWith`, `!==`,
      hex and base58 decoding), so this is kept apart from the full JSON value
      of transaction metadata (`PostMetadata.Json`), whose numbers, arrays and
      objects the post filter does inspect. */
  datatype Field = Undefined | Str(s: string)

  /** JavaScript truthiness of a field: only a non-empty string is truthy. */
  predicate Truthy(f: Field) {
    f.Str? && f.s != ""
  }

  /** JavaScript `a || b`: the first operand when it is truthy, else the second. */
  function Or(a: Field, b: Field): (r: Field)
    ensures Truthy(r) <==> Truthy(a) || Truthy(b)
    ensures Truthy(a) ==> r == a
    ensures !Truthy(a) ==> r == b
  {
    if Truthy(a) then a else b
  }

  /** JavaScript `e?.message || fallback`, the text a `catch` block reports. */
  function MessageOr(e: Exn, fallback: string): (m: string)
    requires fallback != ""
    ensures m != ""
    ensures e.message != "" ==> m == e.message
    ensures e.message == "" ==> m == fallback
  {
    if e.message != "" then e.message else fallback
  }

  /** `s.startsWith(prefix)` */
  predicate StartsWith(s: string, prefix: string) {
    |prefix| <= |s| && s[..|prefix|] == prefix
  }
}

=== FILE: metadata.dfy ===
/** Transaction metadata as the block explorer returns it (parsed JSON), the
    JavaScript string conversions the post filter applies to it, and the shape
    of a label-674 post. */
module PostMetadata {

  /** A parsed JSON value, plus `undefined` for a property that is not there.
      Numbers are integers. */
  datatype Json =
    | Undefined
    | Null
    | Bool(b: bool)
    | Number(n: int)
    | Str(s: string)
    | Array(items: seq<Json>)
    | Object(fields: map<string, Json>)

  /** JavaScript truthiness. */
  predicate Truthy(v: Json) {
    match v
    case Undefined => false
    case Null => false
    case Bool(b) => b
    case Number(n) => n != 0
    case Str(s) => s != ""
    case _ => true
  }

  /** `v.key`: an own property of an object, otherwise `undefined`. */
  function Prop(v: Json, key: string): Json {
    if v.Object? && key in v.fields then v.fields[key] else Undefined
  }

  /** `a || b` */
  function Or(a: Json, b: Json): Json {
    if Truthy(a) then a else b
  }

  /** `a && b` */
  function And(a: Json, b: Json): Json {
    if Truthy(a) then b else a
  }

  // ---------------------------------------------------------------------------
  // String conversion

  predicate IsDigit(c: char) {
    '0' <= c <= '9'
  }

  function DigitValue(c: char): nat
    requires IsDigit(c)
  {
    (c as int) - ('0' as int)
  }

  predicate IsDigits(s: string) {
    forall i :: 0 <= i < |s| ==> IsDigit(s[i])
  }

  /** The number a string of decimal digits denotes, most significant digit first. */
  function DecimalValue(s: string): nat
    requires IsDigits(s)
  {
    if s == [] then 0 else 10 * DecimalValue(s[..|s| - 1]) + DigitValue(s[|s| - 1])
  }

  /** Digits without a leading zero, as JavaScript prints an integer. */
  predicate IsCanonicalDigits(s: string) {
    |s| > 0 && IsDigits(s) && (s[0] == '0' ==> |s| == 1)
  }

  /** `s` is the decimal form JavaScript gives the integer `n`: a minus sign for
      a negative number, then canonical digits denoting its magnitude. */
  predicate IsDecimalOf(s: string, n: int) {
    if n < 0 then |s| > 1 && s[0] == '-' && IsCanonicalDigits(s[1..]) && DecimalValue(s[1..]) == -n
    else IsCanonicalDigits(s) && DecimalValue(s) == n
  }

  function DigitChar(d: nat): (c: char)
    requires d < 10
    ensures IsDigit(c) && DigitValue(c) == d
  {
    ('0' as int + d) as char
  }

  /** The decimal digits of `n`, most significant first. */
  function NatToDecimal(n: nat): (s: string)
    ensures IsCanonicalDigits(s) && DecimalValue(s) == n
  {
    if n < 10 then [DigitChar(n)]
    else
      var high := NatToDecimal(n / 10);
      var s := high + [DigitChar(n % 10)];
      assert s[..|s| - 1] == high;
      s
  }

  function IntToDecimal(n: int): (s: string)
    ensures IsDecimalOf(s, n)
  {
    if n < 0 then
      var s := "-" + NatToDecimal(-n);
      assert s[1..] == NatToDecimal(-n);
      s
    else NatToDecimal(n)
  }

  /** `String(v)` for a value that `Stringifies`; numbers are printed in plain
      decimal. On any other value the conversion throws, and callers test
      `Stringifies` before using the string given here. */
  function ToJsString(v: Json): (s: string)
    ensures v.Str? ==> s == v.s
    ensures v.Number? ==> IsDecimalOf(s, v.n)
    decreases v, 0
  {
    match v
    case Undefined => "undefined"
    case Null => "null"
    case Bool(b) => if b then "true" else "false"
    case Number(n) => IntToDecimal(n)
    case Str(s) => s
    case Array(items) => Join(items, ",")
    case Object(_) => "[object Object]"
  }

  /** Whether `String(v)` returns rather than throws. A parsed JSON object with
      its own `toString` property (a plain value, so not callable) makes the
      conversion throw a TypeError: `toString` is skipped and the inherited
      `valueOf` gives back the object itself. An array is converted by `join`,
      which converts every element that is not `null` or `undefined`, so it
      throws when any element does. */
  predicate Stringifies(v: Json) {
    match v
    case Object(fields) => "toString" !in fields
    case Array(items) => forall i :: 0 <= i < |items| ==> Stringifies(items[i])
    case _ => true
  }

  /** How `Array.prototype.join` renders one element: `null` and `undefined` as
      the empty string, anything else by `String`. */
  function ElementString(v: Json): string
    decreases v, 1
  {
    if v.Undefined? || v.Null? then "" else ToJsString(v)
  }

  /** `items.join(separator)`. Joined with the empty separator, the elements'
      renderings are simply concatenated. */
  function Join(items: seq<Json>, separator: string): (s: string)
    ensures separator == "" ==> s == Concat(ElementStrings(items))
    decreases items, 2
  {
    if items == [] then ""
    else
      ConcatCons(ElementStrings(items), ElementString(items[0]), ElementStrings(items[1..]));
      if |items| == 1 then ElementString(items[0])
      else ElementString(items[0]) + separator + Join(items[1..], separator)
  }

  /** Each element as `join` renders it. */
  function ElementStrings(items: seq<Json>): (strs: seq<string>)
    ensures |strs| == |items|
    ensures forall i :: 0 <= i < |items| ==> strs[i] == ElementString(items[i])
    decreases items, 1
  {
    if items == [] then [] else [ElementString(items[0])] + ElementStrings(items[1..])
  }

  lemma ConcatCons(strs: seq<string>, first: string, rest: seq<string>)
    requires strs == [first] + rest
    ensures Concat(strs) == first + Concat(rest)
  {
    assert strs[1..] == rest;
  }

  // ---------------------------------------------------------------------------
  // Chunked strings

  /** Metadata strings longer than 64 bytes are stored as arrays of chunks;
      `resolveChunked` puts them back together. An array resolves to its
      elements' renderings run together, `null` and `undefined` to the empty
      string, and anything else to its string form. Resolving throws exactly
      when the value does not `Stringify`. */
  function ResolveChunked(v: Json): (s: string)
    ensures v.Array? ==> s == Concat(ElementStrings(v.items))
    ensures v.Undefined? || v.Null? ==> s == ""
    ensures !v.Array? && !v.Undefined? && !v.Null? ==> s == ToJsString(v)
    ensures v.Str? ==> s == v.s
    ensures v.Number? ==> IsDecimalOf(s, v.n)
  {
    if v.Array? then Join(v.items, "")
    else if v.Undefined? || v.Null? then ""
    else ToJsString(v)
  }

  /** The concatenation of a list of strings. */
  function Concat(chunks: seq<string>): string {
    if chunks == [] then "" else chunks[0] + Concat(chunks[1..])
  }

  /** The chunks as JSON strings. */
  function Chunks(chunks: seq<string>): (items: seq<Json>)
    ensures |items| == |chunks|
    ensures forall i :: 0 <= i < |chunks| ==> items[i] == Str(chunks[i])
  {
    if chunks == [] then [] else [Str(chunks[0])] + Chunks(chunks[1..])
  }

  /** An array of string chunks resolves to their concatenation. */
  lemma ChunksResolveToConcat(chunks: seq<string>)
    ensures ResolveChunked(Array(Chunks(chunks))) == Concat(chunks)
  {
    JoinChunks(chunks);
  }

  lemma JoinChunks(chunks: seq<string>)
    ensures Join(Chunks(chunks), "") == Concat(chunks)
  {
    assert ElementStrings(Chunks(chunks)) == chunks;
  }

  /** How a string is cut into chunks does not matter: any two chunkings of the
      same text resolve alike, and alike to the unchunked string. */
  lemma ChunkingTransparent(c1: seq<string>, c2: seq<string>)
    requires Concat(c1) == Concat(c2)
    ensures ResolveChunked(Array(Chunks(c1))) == ResolveChunked(Array(Chunks(c2)))
              == ResolveChunked(Str(Concat(c1)))
  {
    ChunksResolveToConcat(c1);
    ChunksResolveToConcat(c2);
  }

  // ---------------------------------------------------------------------------
  // Post metadata

  const PostType := "post"
  const PostApp := "proof-of-post"

  /** The label-674 post shape: type "post", app "proof-of-post", and a non-empty
      address, nonce and content, each possibly chunked. */
  function IsValidPostMetadata(md: Json): (valid: bool)
    ensures !md.Object? ==> !valid
  {
    if !Truthy(md) || !(md.Array? || md.Object?) then false
    else
      && ResolveChunked(Prop(md, "type")) == PostType
      && ResolveChunked(Prop(md, "app")) == PostApp
      && ResolveChunked(Prop(md, "address")) != ""
      && ResolveChunked(Prop(md, "nonce")) != ""
      && ResolveChunked(Prop(md, "content")) != ""
  }

  /** Whether `isValidPostMetadata(md)` throws: for an object it resolves all
      five fields before testing any of them, and resolving a value that does
      not convert to a string throws. */
  function ValidationThrows(md: Json): (b: bool)
    ensures b <==> md.Object? && !(&& Stringifies(Prop(md, "type")) && Stringifies(Prop(md, "app"))
                                   && Stringifies(Prop(md, "address")) && Stringifies(Prop(md, "nonce"))
                                   && Stringifies(Prop(md, "content")))
  {
    if !Truthy(md) || !(md.Array? || md.Object?) then false
    else
      !(&& Stringifies(Prop(md, "type")) && Stringifies(Prop(md, "app")) && Stringifies(Prop(md, "address"))
        && Stringifies(Prop(md, "nonce")) && Stringifies(Prop(md, "content")))
  }

  /** The shape of a post, stated over an object's fields directly. */
  predicate HasPostFields(fields: map<string, Json>) {
    && "type" in fields && ResolveChunked(fields["type"]) == PostType
    && "app" in fields && ResolveChunked(fields["app"]) == PostApp
    && "address" in fields && ResolveChunked(fields["address"]) != ""
    && "nonce" in fields && ResolveChunked(fields["nonce"]) != ""
    && "content" in fields && ResolveChunked(fields["content"]) != ""
  }

  lemma ValidPostMetadataIff(md: Json)
    ensures IsValidPostMetadata(md) <==> md.Object? && HasPostFields(md.fields)
  {
    if md.Object? {
      forall key | key !in md.fields
        ensures ResolveChunked(Prop(md, key)) == ""
      {
      }
    }
  }
}

=== FILE: posts.dfy ===
/** The pure part of the on-chain post scan: which fetched transactions
    contribute a post for the queried address, what that post carries, and the
    oldest-first ordering of the results. The fetching itself is not modelled:
    each transaction arrives with its metadata and info responses already
    parsed (JSON `null` when a request failed). */
module CardanoPosts {
  import Js
  import opened PostMetadata

  const PostLabel := "674"

  /** A transaction as listed for the address, with its `/metadata` and info
      responses. */
  datatype FetchedTx = FetchedTx(tx: Json, metadata: Json, info: Json)

  /** One emitted post; `blockTime` is the transaction's block time in seconds,
      from which the date is printed. */
  datatype Post = Post(txHash: Json, blockTime: Js.Option<int>, content: string, address: string, nonce: string)

  /** `tx.tx_hash || tx.hash || tx`. It is falsy exactly when the listed entry
      itself is, so only falsy entries are skipped. */
  function TxHash(tx: Json): (h: Json)
    ensures Truthy(h) <==> Truthy(tx)
    ensures Truthy(Prop(tx, "tx_hash")) ==> h == Prop(tx, "tx_hash")
    ensures !Truthy(Prop(tx, "tx_hash")) && Truthy(Prop(tx, "hash")) ==> h == Prop(tx, "hash")
    ensures !Truthy(Prop(tx, "tx_hash")) && !Truthy(Prop(tx, "hash")) ==> h == tx
    ensures !tx.Object? ==> h == tx
  {
    Or(Prop(tx, "tx_hash"), Or(Prop(tx, "hash"), tx))
  }

  /** `info && typeof info.block_time === 'number'`, giving the block time: only
      an info object with a numeric `block_time` dates the post. */
  function BlockTime(info: Json): (t: Js.Option<int>)
    ensures t.Some? <==> info.Object? && "block_time" in info.fields && info.fields["block_time"].Number?
    ensures t.Some? ==> t.value == info.fields["block_time"].n
  {
    if Truthy(info) && Prop(info, "block_time").Number? then Js.Some(Prop(info, "block_time").n) else Js.None
  }

  /** `String(it && it.label) === '674'`: only an object item can pass, and it
      passes when its label prints as 674. */
  function IsPostLabel(item: Json): (b: bool)
    ensures b <==> item.Object? && ToJsString(Prop(item, "label")) == PostLabel
    ensures b ==> Truthy(item)
  {
    ToJsString(And(item, Prop(item, "label"))) == PostLabel
  }

  /** `it && it.label`, the value the label test converts to a string. */
  function LabelOf(item: Json): Json {
    And(item, Prop(item, "label"))
  }

  /** Whether `items.find` throws: it converts each item's label in turn and
      stops at the first label-674 item, so it throws when a label that does
      not convert to a string comes no later than that item. */
  function FindThrows(items: seq<Json>): (b: bool)
    ensures b <==> exists j :: 0 <= j < |items| && !Stringifies(LabelOf(items[j]))
                               && forall k :: 0 <= k < j ==> !IsPostLabel(items[k])
  {
    if items == [] then false
    else if !Stringifies(LabelOf(items[0])) then true
    else if IsPostLabel(items[0]) then false
    else
      FindThrowsShift(items);
      FindThrows(items[1..])
  }

  /** The witness for a throwing `find` past the head moves one place along. */
  lemma FindThrowsShift(items: seq<Json>)
    requires items != [] && Stringifies(LabelOf(items[0])) && !IsPostLabel(items[0])
    ensures (exists j :: 0 <= j < |items| && !Stringifies(LabelOf(items[j]))
                         && forall k :: 0 <= k < j ==> !IsPostLabel(items[k]))
            <==> (exists j :: 0 <= j < |items[1..]| && !Stringifies(LabelOf(items[1..][j]))
                              && forall k :: 0 <= k < j ==> !IsPostLabel(items[1..][k]))
  {
    if exists j :: 0 <= j < |items| && !Stringifies(LabelOf(items[j]))
                   && forall k :: 0 <= k < j ==> !IsPostLabel(items[k]) {
      var j :| 0 <= j < |items| && !Stringifies(LabelOf(items[j]))
               && forall k :: 0 <= k < j ==> !IsPostLabel(items[k]);
      assert j > 0;
      assert !Stringifies(LabelOf(items[1..][j - 1]));
      assert forall k :: 0 <= k < j - 1 ==> items[1..][k] == items[k + 1];
    }
    if exists j :: 0 <= j < |items[1..]| && !Stringifies(LabelOf(items[1..][j]))
                   && forall k :: 0 <= k < j ==> !IsPostLabel(items[1..][k]) {
      var j :| 0 <= j < |items[1..]| && !Stringifies(LabelOf(items[1..][j]))
               && forall k :: 0 <= k < j ==> !IsPostLabel(items[1..][k]);
      assert !Stringifies(LabelOf(items[j + 1]));
      forall k | 0 <= k < j + 1
        ensures !IsPostLabel(items[k])
      {
        if k > 0 {
          assert items[k] == items[1..][k - 1];
        }
      }
    }
  }

  /** The index `items.find` stops at: the first item with label 674. */
  function FirstPostIndex(items: seq<Json>): (r: Js.Option<nat>)
    ensures r.Some? ==> r.value < |items| && IsPostLabel(items[r.value])
    ensures r.Some? ==> forall j :: 0 <= j < r.value ==> !IsPostLabel(items[j])
    ensures r.None? ==> forall j :: 0 <= j < |items| ==> !IsPostLabel(items[j])
  {
    if items == [] then Js.None
    else if IsPostLabel(items[0]) then Js.Some(0)
    else
      match FirstPostIndex(items[1..])
      case None => Js.None
      case Some(k) => Js.Some(k + 1)
  }

  /** `m674 && (m674.json_metadata || m674.metadata)` */
  function PostMetadataOf(item: Json): Json {
    And(item, Or(Prop(item, "json_metadata"), Prop(item, "metadata")))
  }

  /** The largest time value a `Date` holds, in milliseconds either side of the epoch. */
  const MaxTimeValue := 8_640_000_000_000_000

  /** Whether `new Date(t * 1000).toISOString()` throws: a time value past the
      range of `Date` is invalid, and formatting it is a RangeError. */
  predicate DateThrows(blockTime: Js.Option<int>) {
    blockTime.Some? && !(-MaxTimeValue <= blockTime.value * 1000 <= MaxTimeValue)
  }

  /** The post a fetched transaction contributes for `address`, if any, when
      handling it does not throw (see `TxThrows`). */
  function SelectPost(t: FetchedTx, address: string): (r: Js.Option<Post>)
    ensures r.Some? ==> r.value.address == address && r.value.content != "" && r.value.nonce != ""
    ensures r.Some? ==> r.value.txHash == TxHash(t.tx) && r.value.blockTime == BlockTime(t.info)
  {
    if !t.metadata.Array? || |t.metadata.items| == 0 then Js.None
    else
      match FirstPostIndex(t.metadata.items)
      case None => Js.None
      case Some(i) =>
        var md := PostMetadataOf(t.metadata.items[i]);
        if IsValidPostMetadata(md) && ResolveChunked(Prop(md, "address")) == address then
          Js.Some(Post(TxHash(t.tx), BlockTime(t.info), ResolveChunked(Prop(md, "content")), address,
                       ResolveChunked(Prop(md, "nonce"))))
        else Js.None
  }

  /** `items[i]` is the first label-674 item of the list. */
  predicate IsFirstPostItem(items: seq<Json>, i: nat) {
    i < |items| && IsPostLabel(items[i]) && forall j :: 0 <= j < i ==> !IsPostLabel(items[j])
  }

  /** A transaction contributes exactly when its metadata is a non-empty list
      whose first label-674 item holds valid post metadata naming the queried
      address; the post then carries that metadata's content and nonce. */
  lemma SelectPostIff(t: FetchedTx, address: string)
    ensures SelectPost(t, address).Some? <==>
              && t.metadata.Array?
              && exists i: nat :: IsFirstPostItem(t.metadata.items, i)
                   && var md := Or(Prop(t.metadata.items[i], "json_metadata"), Prop(t.metadata.items[i], "metadata"));
                      IsValidPostMetadata(md) && ResolveChunked(Prop(md, "address")) == address
    ensures SelectPost(t, address).Some? ==>
              exists i: nat :: IsFirstPostItem(t.metadata.items, i)
                && var md := Or(Prop(t.metadata.items[i], "json_metadata"), Prop(t.metadata.items[i], "metadata"));
                   && SelectPost(t, address).value.content == ResolveChunked(Prop(md, "content"))
                   && SelectPost(t, address).value.nonce == ResolveChunked(Prop(md, "nonce"))
  {
    if t.metadata.Array? {
      var items := t.metadata.items;
      forall i: nat | IsFirstPostItem(items, i)
        ensures FirstPostIndex(items) == Js.Some(i)
        ensures PostMetadataOf(items[i]) == Or(Prop(items[i], "json_metadata"), Prop(items[i], "metadata"))
      {
      }
      match FirstPostIndex(items)
      case None =>
      case Some(k) =>
        assert IsFirstPostItem(items, k);
    }
  }

  // ---------------------------------------------------------------------------
  // Collecting over the transactions of the address

  /** `null` and `undefined`, whose properties cannot be read. */
  predicate IsNullish(v: Json) {
    v.Null? || v.Undefined?
  }

  /** Whether handling one listed transaction throws. Reading `tx.tx_hash` of a
      `null` entry throws; a hash that does not convert to a string makes
      `encodeURIComponent` throw; then the label search, the five field
      resolutions of the first label-674 item's metadata, and formatting the
      date of an accepted post can each throw. Nothing here is caught. */
  predicate TxThrows(t: FetchedTx, address: string) {
    || IsNullish(t.tx)
    || (&& Truthy(TxHash(t.tx))
        && (|| !Stringifies(TxHash(t.tx))
            || (&& t.metadata.Array? && |t.metadata.items| > 0
                && (|| FindThrows(t.metadata.items)
                    || (&& FirstPostIndex(t.metadata.items).Some?
                        && var md := PostMetadataOf(t.metadata.items[FirstPostIndex(t.metadata.items).value]);
                           || ValidationThrows(md)
                           || (&& IsValidPostMetadata(md) && ResolveChunked(Prop(md, "address")) == address
                               && DateThrows(BlockTime(t.info))))))))
  }

  /** The posts pushed while scanning `txs` in order; transactions whose hash is
      falsy are skipped. An error thrown while handling any transaction ends
      the whole scan before anything is printed: that gives `None`. */
  function CollectPosts(txs: seq<FetchedTx>, address: string): (r: Js.Option<seq<Post>>)
    ensures r.None? <==> exists i :: 0 <= i < |txs| && TxThrows(txs[i], address)
    ensures r.Some? ==> |r.value| <= |txs|
    ensures r.Some? ==> forall k :: 0 <= k < |r.value| ==> r.value[k].address == address
  {
    if txs == [] then Js.Some([])
    else if TxThrows(txs[0], address) then Js.None
    else
      match CollectPosts(txs[1..], address)
      case None => Js.None
      case Some(rest) =>
        if !Truthy(TxHash(txs[0].tx)) then Js.Some(rest)
        else
          match SelectPost(txs[0], address)
          case None => Js.Some(rest)
          case Some(p) => Js.Some([p] + rest)
  }

  /** A label-674 item whose metadata `type` is an object with its own
      `toString` ends the scan with an error, while the same item with an empty
      `type` object is merely not a post. */
  lemma OwnToStringEndsScan(address: string)
    ensures var item := Object(map["label" := Str("674"), "json_metadata" := Object(map["type" := Object(map["toString" := Str("x")])])]);
            CollectPosts([FetchedTx(Object(map["tx_hash" := Str("ab")]), Array([item]), Null)], address).None?
    ensures var item := Object(map["label" := Str("674"), "json_metadata" := Object(map["type" := Object(map[])])]);
            CollectPosts([FetchedTx(Object(map["tx_hash" := Str("ab")]), Array([item]), Null)], address) == Js.Some([])
  {
  }

  /** The post a transaction yields in the scan: none when its hash is falsy. */
  function Yield(t: FetchedTx, address: string): Js.Option<Post> {
    if Truthy(TxHash(t.tx)) then SelectPost(t, address) else Js.None
  }

  /** The yield of each transaction, in scan order. */
  function Yields(txs: seq<FetchedTx>, address: string): (ys: seq<Js.Option<Post>>)
    ensures |ys| == |txs|
    ensures forall i :: 0 <= i < |txs| ==> ys[i] == Yield(txs[i], address)
  {
    if txs == [] then [] else [Yield(txs[0], address)] + Yields(txs[1..], address)
  }

  /** The present values of a list of options, in order. */
  function Somes<T>(ys: seq<Js.Option<T>>): (r: seq<T>)
    ensures |r| <= |ys|
  {
    if ys == [] then [] else (if ys[0].Some? then [ys[0].value] else []) + Somes(ys[1..])
  }

  /** The scan, when it does not throw, keeps exactly the transactions' yields,
      in order. */
  lemma {:induction false} CollectPostsIsFilter(txs: seq<FetchedTx>, address: string)
    requires CollectPosts(txs, address).Some?
    ensures CollectPosts(txs, address).value == Somes(Yields(txs, address))
  {
    if txs != [] {
      assert !TxThrows(txs[0], address);
      CollectPostsIsFilter(txs[1..], address);
      assert Yields(txs, address)[1..] == Yields(txs[1..], address);
    }
  }

  lemma {:induction false} SomesMembers<T>(ys: seq<Js.Option<T>>, x: T)
    ensures x in Somes(ys) <==> exists i :: 0 <= i < |ys| && ys[i] == Js.Some(x)
  {
    if ys != [] {
      SomesMembers(ys[1..], x);
      if exists i :: 0 <= i < |ys[1..]| && ys[1..][i] == Js.Some(x) {
        var i :| 0 <= i < |ys[1..]| && ys[1..][i] == Js.Some(x);
        assert ys[i + 1] == Js.Some(x);
      }
      if exists i :: 0 <= i < |ys| && ys[i] == Js.Some(x) {
        var i :| 0 <= i < |ys| && ys[i] == Js.Some(x);
        if i > 0 {
          assert ys[1..][i - 1] == Js.Some(x);
        }
      }
    }
  }

  /** Where a present value lands among the present values. */
  lemma {:induction false} SomesPosition<T>(ys: seq<Js.Option<T>>, j: nat) returns (l: nat)
    requires j < |ys| && ys[j].Some?
    ensures l < |Somes(ys)| && Somes(ys)[l] == ys[j].value
  {
    var rest := Somes(ys[1..]);
    if j == 0 {
      l := 0;
    } else {
      var l' := SomesPosition(ys[1..], j - 1);
      if ys[0].Some? {
        l := l' + 1;
        assert Somes(ys) == [ys[0].value] + rest;
      } else {
        l := l';
        assert Somes(ys) == rest;
      }
    }
  }

  /** Present values keep their relative order. */
  lemma {:induction false} SomesInOrder<T>(ys: seq<Js.Option<T>>, i: nat, j: nat) returns (k: nat, l: nat)
    requires i < j < |ys| && ys[i].Some? && ys[j].Some?
    ensures k < l < |Somes(ys)|
    ensures Somes(ys)[k] == ys[i].value && Somes(ys)[l] == ys[j].value
  {
    var rest := Somes(ys[1..]);
    if i == 0 {
      var l' := SomesPosition(ys[1..], j - 1);
      assert Somes(ys) == [ys[0].value] + rest;
      k, l := 0, l' + 1;
    } else {
      var k', l' := SomesInOrder(ys[1..], i - 1, j - 1);
      if ys[0].Some? {
        assert Somes(ys) == [ys[0].value] + rest;
        k, l := k' + 1, l' + 1;
      } else {
        assert Somes(ys) == rest;
        k, l := k', l';
      }
    }
  }

  /** A transaction with a truthy hash that `SelectPost` accepts. */
  predicate Contributes(t: FetchedTx, address: string, p: Post) {
    Truthy(TxHash(t.tx)) && SelectPost(t, address) == Js.Some(p)
  }

  /** The collected posts are exactly those the contributing transactions yield. */
  lemma CollectPostsMembers(txs: seq<FetchedTx>, address: string, p: Post)
    requires CollectPosts(txs, address).Some?
    ensures p in CollectPosts(txs, address).value <==> exists i :: 0 <= i < |txs| && Contributes(txs[i], address, p)
  {
    CollectPostsIsFilter(txs, address);
    var ys := Yields(txs, address);
    SomesMembers(ys, p);
    assert forall i :: 0 <= i < |txs| ==> (ys[i] == Js.Some(p) <==> Contributes(txs[i], address, p));
  }

  /** The posts keep the order of the transactions that yield them. */
  lemma CollectPostsInOrder(txs: seq<FetchedTx>, address: string, i: nat, j: nat)
    returns (k: nat, l: nat)
    requires i < j < |txs| && CollectPosts(txs, address).Some?
    requires Truthy(TxHash(txs[i].tx)) && SelectPost(txs[i], address).Some?
    requires Truthy(TxHash(txs[j].tx)) && SelectPost(txs[j], address).Some?
    ensures k < l < |CollectPosts(txs, address).value|
    ensures CollectPosts(txs, address).value[k] == SelectPost(txs[i], address).value
    ensures CollectPosts(txs, address).value[l] == SelectPost(txs[j], address).value
  {
    CollectPostsIsFilter(txs, address);
    var ys := Yields(txs, address);
    assert ys[i] == SelectPost(txs[i], address) && ys[j] == SelectPost(txs[j], address);
    k, l := SomesInOrder(ys, i, j);
  }

  // ---------------------------------------------------------------------------
  // Oldest first

  /** `Date.parse(post.date)` in milliseconds, with 0 for a post without a date:
      a dated post's key is its block time in whole seconds, scaled to milliseconds. */
  function SortKey(p: Post): (ms: int)
    ensures p.blockTime.None? ==> ms == 0
    ensures p.blockTime.Some? ==> ms % 1000 == 0 && ms / 1000 == p.blockTime.value
  {
    match p.blockTime
    case Some(t) => t * 1000
    case None => 0
  }

  /** Scaling to milliseconds keeps the order of block times. */
  lemma SortKeyOrder(p: Post, q: Post)
    requires p.blockTime.Some? && q.blockTime.Some?
    ensures SortKey(p) <= SortKey(q) <==> p.blockTime.value <= q.blockTime.value
  {
  }

  predicate SortedByDate(posts: seq<Post>) {
    forall i, j :: 0 <= i < j < |posts| ==> SortKey(posts[i]) <= SortKey(posts[j])
  }

  /** Prepending a post no newer than the head keeps a list in date order. */
  lemma SortedCons(x: Post, s: seq<Post>)
    requires SortedByDate(s)
    requires s != [] ==> SortKey(x) <= SortKey(s[0])
    ensures SortedByDate([x] + s)
  {
    forall i, j | 0 <= i < j < |[x] + s|
      ensures SortKey(([x] + s)[i]) <= SortKey(([x] + s)[j])
    {
      if i == 0 && j > 1 {
        assert SortKey(s[0]) <= SortKey(s[j - 1]);
      }
    }
  }

  /** Inserts `p` before the first post that is not older, so that it stays
      ahead of posts with the same date. */
  function InsertByDate(p: Post, sorted: seq<Post>): (r: seq<Post>)
    requires SortedByDate(sorted)
    ensures SortedByDate(r)
    ensures multiset(r) == multiset(sorted) + multiset{p}
    ensures r != [] && (r[0] == p || (sorted != [] && r[0] == sorted[0]))
  {
    if sorted == [] || SortKey(p) <= SortKey(sorted[0]) then
      SortedCons(p, sorted);
      [p] + sorted
    else
      var rest := InsertByDate(p, sorted[1..]);
      assert sorted == [sorted[0]] + sorted[1..];
      SortedCons(sorted[0], rest);
      [sorted[0]] + rest
  }

  /** The stable sort `results.sort((a, b) => ta - tb)`. */
  function SortByDate(posts: seq<Post>): (r: seq<Post>)
    ensures SortedByDate(r)
    ensures multiset(r) == multiset(posts)
  {
    if posts == [] then []
    else
      assert posts == [posts[0]] + posts[1..];
      InsertByDate(posts[0], SortByDate(posts[1..]))
  }

  /** The posts dated `key`, in their order in `posts`. */
  function WithKey(posts: seq<Post>, key: int): (r: seq<Post>)
    ensures |r| <= |posts|
  {
    if posts == [] then []
    else (if SortKey(posts[0]) == key then [posts[0]] else []) + WithKey(posts[1..], key)
  }

  lemma WithKeyCons(x: Post, s: seq<Post>, key: int)
    ensures WithKey([x] + s, key) == (if SortKey(x) == key then [x] else []) + WithKey(s, key)
  {
    assert ([x] + s)[1..] == s;
  }

  /** Inserting keeps the relative order of posts with equal dates, `p` going
      ahead of those already there. */
  lemma {:induction false} InsertByDateStable(p: Post, sorted: seq<Post>, key: int)
    requires SortedByDate(sorted)
    ensures WithKey(InsertByDate(p, sorted), key)
              == (if SortKey(p) == key then [p] else []) + WithKey(sorted, key)
  {
    if sorted == [] || SortKey(p) <= SortKey(sorted[0]) {
      WithKeyCons(p, sorted, key);
    } else {
      var rest := InsertByDate(p, sorted[1..]);
      assert InsertByDate(p, sorted) == [sorted[0]] + rest;
      InsertByDateStable(p, sorted[1..], key);
      WithKeyCons(sorted[0], rest, key);
      WithKeyCons(sorted[0], sorted[1..], key);
      assert [sorted[0]] + sorted[1..] == sorted;
      if SortKey(sorted[0]) == key {
        assert SortKey(p) != key;
        assert WithKey(rest, key) == WithKey(sorted[1..], key);
      } else {
        assert WithKey(sorted, key) == WithKey(sorted[1..], key);
      }
    }
  }

  /** The sort is stable: posts with the same date keep their input order. */
  lemma {:induction false} SortByDateStable(posts: seq<Post>, key: int)
    ensures WithKey(SortByDate(posts), key) == WithKey(posts, key)
  {
    if posts != [] {
      SortByDateStable(posts[1..], key);
      InsertByDateStable(posts[0], SortByDate(posts[1..]), key);
      WithKeyCons(posts[0], posts[1..], key);
      assert [posts[0]] + posts[1..] == posts;
    }
  }

  /** Posts already in date order are left exactly as they are. */
  lemma {:induction false} SortByDateKeepsSortedInput(posts: seq<Post>)
    requires SortedByDate(posts)
    ensures SortByDate(posts) == posts
  {
    if posts != [] {
      SortByDateKeepsSortedInput(posts[1..]);
      assert posts == [posts[0]] + posts[1..];
    }
  }

  /** What the scan prints: the collected posts, oldest first, or nothing when
      the scan throws. Every printed post names the queried address, and none is
      lost or duplicated by sorting. */
  function PostsForAddress(txs: seq<FetchedTx>, address: string): (r: Js.Option<seq<Post>>)
    ensures r.Some? <==> CollectPosts(txs, address).Some?
    ensures r.Some? ==> SortedByDate(r.value)
    ensures r.Some? ==> multiset(r.value) == multiset(CollectPosts(txs, address).value)
    ensures r.Some? ==> forall k :: 0 <= k < |r.value| ==> r.value[k].address == address
  {
    match CollectPosts(txs, address)
    case None => Js.None
    case Some(collected) =>
      var posts := SortByDate(collected);
      assert forall k :: 0 <= k < |posts| ==> posts[k] in multiset(collected);
      Js.Some(posts)
  }
}

=== FILE: verify.dfy ===
/** The offline proof-bundle verifier: it classifies a parsed JSON bundle as a
    Cardano CIP-8 proof or a Solana proof and checks it, answering with a verdict
    `{ok, reason}`. Once a path has its libraries loaded, no error escapes it: a
    thrown error becomes the rejection reason. */
module VerifyBundle {
  import opened Js
  import opened Cbor
  import Cose
  import CardanoAddress

  /** A BLAKE2b digest of 224 bits. */
  type Hash28 = h: Bytes | |h| == 28 witness seq(28, i => 0)

  /** The library primitives the verifier calls, kept abstract. */
  datatype Primitives = Primitives(
    hexDecode: string -> Bytes,                         // Buffer.from(h, 'hex'): never throws
    base58Decode: string -> Result<Bytes>,              // bs58.decode
    utf8Encode: string -> Bytes,                        // new TextEncoder().encode
    cborDecode: Bytes -> Result<Value>,                 // cbor.decode
    ed25519Verify: (Bytes, Bytes, Bytes) -> Result<bool>, // nacl.sign.detached.verify(msg, sig, pk)
    blake2b224: Bytes -> Hash28,                        // blake.blake2b(pub, undefined, 28)
    addressFromBech32: string -> Result<CardanoAddress.Address>,
    addressFromBytes: Bytes -> Result<CardanoAddress.Address>)
  {
    function AddressParsers(): CardanoAddress.AddressParsers {
      CardanoAddress.AddressParsers(addressFromBech32, addressFromBytes, hexDecode)
    }
  }

  /** The fields of a bundle the verifier reads. */
  datatype Bundle = Bundle(
    addressHex: Field, addressBech32: Field, address: Field,
    payloadHex: Field, signatureHex: Field, keyHex: Field,
    addressBase58: Field, payloadUtf8: Field, signatureBase58: Field, pubkeyBase58: Field)

  /** `{ ok, reason }`, where a missing reason is JSON `null`. */
  datatype Verdict = Verdict(ok: bool, reason: Option<string>)

  const Accept := Verdict(true, None)

  function Reject(reason: string): Verdict {
    Verdict(false, Some(reason))
  }

  /** The reason is null exactly when the proof is accepted, and otherwise says something. */
  predicate WellFormed(v: Verdict) {
    (v.ok <==> v.reason.None?) && (v.reason.Some? ==> v.reason.value != "")
  }

  const UnknownFormat := "Unknown bundle format"
  const MissingCardano := "Missing fields for Cardano bundle"
  const MissingSolana := "Missing fields for Solana bundle"
  const InvalidSignature := "Invalid signature"
  const KeyHashMismatch := "Pubkey does not match address payment keyhash"
  const PayloadMismatch := "Payload mismatch"
  const PubkeyAddressMismatch := "Public key does not match address"
  const CardanoFallback := "Verify error"
  const SolanaFallback := "Verify failed"

  /** What a `catch (e)` turns a thrown error into. */
  function Catch(r: Result<Verdict>, fallback: string): (v: Verdict)
    requires fallback != ""
    requires r.Ok? ==> WellFormed(r.value)
    ensures WellFormed(v)
    ensures r.Ok? ==> v == r.value
    ensures r.Throw? ==> v == Reject(MessageOr(r.error, fallback))
  {
    match r
    case Ok(v) => v
    case Throw(e) => Reject(MessageOr(e, fallback))
  }

  // ---------------------------------------------------------------------------
  // Format detection

  datatype Format = Cardano | Solana | Unknown

  predicate HasCardanoField(b: Bundle) {
    Truthy(b.signatureHex) || Truthy(b.keyHex) || Truthy(b.payloadHex)
  }

  predicate HasSolanaField(b: Bundle) {
    Truthy(b.signatureBase58) || Truthy(b.pubkeyBase58) || Truthy(b.payloadUtf8)
  }

  /** The bundle's format, decided by field truthiness alone; Cardano wins a tie. */
  function Classify(b: Bundle): (f: Format)
    ensures f == Cardano <==> HasCardanoField(b)
    ensures f == Solana <==> !HasCardanoField(b) && HasSolanaField(b)
    ensures f == Unknown <==> !HasCardanoField(b) && !HasSolanaField(b)
  {
    if HasCardanoField(b) then Cardano
    else if HasSolanaField(b) then Solana
    else Unknown
  }

  /** The verdict for a parsed bundle. */
  function Verify(b: Bundle, p: Primitives): (v: Verdict)
    ensures WellFormed(v)
    ensures Classify(b) == Unknown ==> v == Reject(UnknownFormat)
    ensures Classify(b) == Cardano ==> v == VerifyCardano(b, p)
    ensures Classify(b) == Solana ==> v == VerifySolana(b, p)
  {
    match Classify(b)
    case Unknown => Reject(UnknownFormat)
    case Cardano => VerifyCardano(b, p)
    case Solana => VerifySolana(b, p)
  }

  // ---------------------------------------------------------------------------
  // Cardano CIP-8

  /** `bundle.addressHex || bundle.addressBech32 || bundle.address` */
  function CardanoAddressField(b: Bundle): Field {
    Or(Or(b.addressHex, b.addressBech32), b.address)
  }

  predicate CardanoFieldsPresent(b: Bundle) {
    Truthy(CardanoAddressField(b)) && Truthy(b.payloadHex) && Truthy(b.signatureHex) && Truthy(b.keyHex)
  }

  /** Decodes the signature field into the parts of a COSE_Sign1. */
  function DecodeSign1(p: Primitives, signatureHex: string): Result<Cose.Sign1> {
    var v :- p.cborDecode(p.hexDecode(signatureHex));
    Cose.ParseSign1(v)
  }

  /** Decodes the key field into the 32-byte public key of a COSE_Key. */
  function DecodePubKey(p: Primitives, keyHex: string): Result<ByteString> {
    var v :- p.cborDecode(p.hexDecode(keyHex));
    Cose.ExtractPubKey(v)
  }

  /** The body of the `try` block of the Cardano path: signature, then key
      binding, then payload, the first failing check deciding the reason. */
  function CheckCardano(p: Primitives, address: string, payloadHex: string, signatureHex: string, keyHex: string)
    : (r: Result<Verdict>)
    ensures r.Ok? ==> WellFormed(r.value)
  {
    var sign1 :- DecodeSign1(p, signatureHex);
    var toBeSigned := Cose.ToBeSigned(sign1.protectedHeader, sign1.payload);
    var pub :- DecodePubKey(p, keyHex);
    var signatureOk :- p.ed25519Verify(toBeSigned, sign1.signature, pub);
    if !signatureOk then Ok(Reject(InvalidSignature))
    else
      var want :- CardanoAddress.PaymentKeyHash(p.AddressParsers(), address);
      if want != p.blake2b224(pub) then Ok(Reject(KeyHashMismatch))
      else if sign1.payload != p.hexDecode(payloadHex) then Ok(Reject(PayloadMismatch))
      else Ok(Accept)
  }

  function VerifyCardano(b: Bundle, p: Primitives): (v: Verdict)
    ensures WellFormed(v)
  {
    if !CardanoFieldsPresent(b) then Reject(MissingCardano)
    else Catch(CheckCardano(p, CardanoAddressField(b).s, b.payloadHex.s, b.signatureHex.s, b.keyHex.s), CardanoFallback)
  }

  // ---------------------------------------------------------------------------
  // Solana

  /** `bundle.addressBase58 || bundle.address` */
  function SolanaAddressField(b: Bundle): Field {
    Or(b.addressBase58, b.address)
  }

  predicate SolanaFieldsPresent(b: Bundle) {
    Truthy(b.payloadUtf8) && Truthy(b.signatureBase58) && Truthy(b.pubkeyBase58) && Truthy(SolanaAddressField(b))
  }

  /** The body of the `try` block of the Solana path. */
  function CheckSolana(p: Primitives, payload: string, signature: string, pubkey: string, address: string)
    : (r: Result<Verdict>)
    ensures r.Ok? ==> WellFormed(r.value)
  {
    var message := p.utf8Encode(payload);
    var signatureBytes :- p.base58Decode(signature);
    var pubkeyBytes :- p.base58Decode(pubkey);
    var signatureOk :- p.ed25519Verify(message, signatureBytes, pubkeyBytes);
    if !signatureOk then Ok(Reject(InvalidSignature))
    else if pubkey != address then Ok(Reject(PubkeyAddressMismatch))
    else Ok(Accept)
  }

  function VerifySolana(b: Bundle, p: Primitives): (v: Verdict)
    ensures WellFormed(v)
  {
    if !SolanaFieldsPresent(b) then Reject(MissingSolana)
    else Catch(CheckSolana(p, b.payloadUtf8.s, b.signatureBase58.s, b.pubkeyBase58.s, SolanaAddressField(b).s), SolanaFallback)
  }
}

=== FILE: verify_properties.dfy ===
/** Properties of the proof-bundle verifier: how dispatch picks a path, when each
    path accepts, which check decides the reason, and what an accepted proof
    binds together. */
module BundleProperties {
  import opened Js
  import opened Cbor
  import Cose
  import CardanoAddress
  import opened VerifyBundle

  // ---------------------------------------------------------------------------
  // Dispatch

  /** Once a Cardano field is truthy, the Solana fields are irrelevant: the
      Cardano path alone decides, whatever they hold. */
  lemma CardanoTakesPriority(b: Bundle, p: Primitives, address: Field, payload: Field, signature: Field, pubkey: Field)
    requires HasCardanoField(b)
    ensures Verify(b.(addressBase58 := address, payloadUtf8 := payload, signatureBase58 := signature, pubkeyBase58 := pubkey), p)
            == VerifyCardano(b, p)
  {
    var b' := b.(addressBase58 := address, payloadUtf8 := payload, signatureBase58 := signature, pubkeyBase58 := pubkey);
    assert Classify(b') == Cardano;
    assert CardanoAddressField(b') == CardanoAddressField(b);
  }

  /** A bundle with no signal field is answered without any primitive being used. */
  lemma UnknownFormatIndependentOfPrimitives(b: Bundle, p: Primitives, q: Primitives)
    requires !HasCardanoField(b) && !HasSolanaField(b)
    ensures Verify(b, p) == Verify(b, q) == Reject(UnknownFormat)
  {
  }

  // ---------------------------------------------------------------------------
  // Cardano: missing fields

  /** A missing address, payload, signature or key is reported before any
      decoding: the verdict is the same whatever the primitives do. */
  lemma CardanoMissingFieldsFirst(b: Bundle, p: Primitives, q: Primitives)
    requires (!Truthy(b.addressHex) && !Truthy(b.addressBech32) && !Truthy(b.address))
             || !Truthy(b.payloadHex) || !Truthy(b.signatureHex) || !Truthy(b.keyHex)
    ensures VerifyCardano(b, p) == VerifyCardano(b, q) == Reject(MissingCardano)
  {
  }

  // ---------------------------------------------------------------------------
  // Cardano: acceptance

  /** The conditions of a valid CIP-8 proof, as one conjunction over the decoded
      parts: the signature verifies over the Sig_structure (not the raw payload),
      the key hashes to the address's payment key hash, and the signed payload is
      the declared one. */
  ghost predicate CardanoProofHolds(b: Bundle, p: Primitives) {
    && CardanoFieldsPresent(b)
    && DecodeSign1(p, b.signatureHex.s).Ok?
    && DecodePubKey(p, b.keyHex.s).Ok?
    && var sign1 := DecodeSign1(p, b.signatureHex.s).value;
       var pub := DecodePubKey(p, b.keyHex.s).value;
       && p.ed25519Verify(Cose.ToBeSigned(sign1.protectedHeader, sign1.payload), sign1.signature, pub) == Ok(true)
       && CardanoAddress.PaymentKeyHash(p.AddressParsers(), CardanoAddressField(b).s) == Ok(p.blake2b224(pub))
       && sign1.payload == p.hexDecode(b.payloadHex.s)
  }

  lemma CardanoAcceptance(b: Bundle, p: Primitives)
    ensures VerifyCardano(b, p).ok <==> CardanoProofHolds(b, p)
    ensures VerifyCardano(b, p).ok ==> VerifyCardano(b, p) == Accept
  {
    if CardanoFieldsPresent(b) {
      var r := CheckCardano(p, CardanoAddressField(b).s, b.payloadHex.s, b.signatureHex.s, b.keyHex.s);
      assert VerifyCardano(b, p) == Catch(r, CardanoFallback);
      if r.Ok? {
        assert VerifyCardano(b, p) == r.value;
      }
    }
  }

  // ---------------------------------------------------------------------------
  // Cardano: structural failures

  /** A signature that decodes to anything but a four-element array is a bad
      COSE_Sign1; a four-element array whose elements 0, 2 or 3 are not byte
      strings is a malformed one. Element 1 plays no part. */
  lemma CardanoSign1ShapeFailures(b: Bundle, p: Primitives, v: Value)
    requires CardanoFieldsPresent(b)
    requires p.cborDecode(p.hexDecode(b.signatureHex.s)) == Ok(v)
    ensures !Cose.IsFourArray(v) ==> VerifyCardano(b, p) == Reject(Cose.BadSign1)
    ensures Cose.IsFourArray(v) && !Cose.IsSign1Shape(v) ==> VerifyCardano(b, p) == Reject(Cose.MalformedSign1)
  {
  }

  /** With a well-formed COSE_Sign1, a key that decodes to anything but a map is a
      bad COSE_Key, and a map without a 32-byte byte string at label -2 has no
      public key. */
  lemma CardanoKeyFailures(b: Bundle, p: Primitives, k: Value)
    requires CardanoFieldsPresent(b)
    requires DecodeSign1(p, b.signatureHex.s).Ok?
    requires p.cborDecode(p.hexDecode(b.keyHex.s)) == Ok(k)
    ensures !k.KeyedMap? ==> VerifyCardano(b, p) == Reject(Cose.BadKey)
    ensures k.KeyedMap? && Cose.ExtractPubKey(k).Throw? ==> VerifyCardano(b, p) == Reject(Cose.MissingPubKey)
  {
  }

  /** When the CBOR decoder throws on the signature, or on the key once the
      signature is a well-formed COSE_Sign1, the decoder's own message is the
      rejection reason, or "Verify error" when that message is empty. */
  lemma CardanoDecodeErrors(b: Bundle, p: Primitives)
    requires CardanoFieldsPresent(b)
    ensures p.cborDecode(p.hexDecode(b.signatureHex.s)).Throw? ==>
              VerifyCardano(b, p) == Reject(MessageOr(p.cborDecode(p.hexDecode(b.signatureHex.s)).error, CardanoFallback))
    ensures DecodeSign1(p, b.signatureHex.s).Ok? && p.cborDecode(p.hexDecode(b.keyHex.s)).Throw? ==>
              VerifyCardano(b, p) == Reject(MessageOr(p.cborDecode(p.hexDecode(b.keyHex.s)).error, CardanoFallback))
  {
  }

  // ---------------------------------------------------------------------------
  // Cardano: which check decides

  /** Once both structures decode, the checks run in a fixed order and the first
      failure decides the verdict: an invalid signature is reported whatever the
      address and payload; a key-hash mismatch whatever the payload; a thrown
      error by its message, or "Verify error" if it has none. */
  lemma CardanoCheckOrder(b: Bundle, p: Primitives)
    requires CardanoFieldsPresent(b)
    requires DecodeSign1(p, b.signatureHex.s).Ok? && DecodePubKey(p, b.keyHex.s).Ok?
    ensures var sign1 := DecodeSign1(p, b.signatureHex.s).value;
            var pub := DecodePubKey(p, b.keyHex.s).value;
            var sigCheck := p.ed25519Verify(Cose.ToBeSigned(sign1.protectedHeader, sign1.payload), sign1.signature, pub);
            var want := CardanoAddress.PaymentKeyHash(p.AddressParsers(), CardanoAddressField(b).s);
            var v := VerifyCardano(b, p);
            && (sigCheck.Throw? ==> v == Reject(MessageOr(sigCheck.error, CardanoFallback)))
            && (sigCheck == Ok(false) ==> v == Reject(InvalidSignature))
            && (sigCheck == Ok(true) && want.Throw? ==> v == Reject(MessageOr(want.error, CardanoFallback)))
            && (sigCheck == Ok(true) && want.Ok? && want.value != p.blake2b224(pub) ==> v == Reject(KeyHashMismatch))
            && (sigCheck == Ok(true) && want == Ok(p.blake2b224(pub)) && sign1.payload != p.hexDecode(b.payloadHex.s)
                ==> v == Reject(PayloadMismatch))
  {
  }

  /** An address of a shape other than base or enterprise is reported as
      unsupported once the signature has passed, and never accepted. */
  lemma UnsupportedAddressRejected(b: Bundle, p: Primitives)
    requires CardanoFieldsPresent(b)
    requires var a := CardanoAddress.ParseAddress(p.AddressParsers(), CardanoAddressField(b).s);
             a.Ok? && !(a.value.Base? || a.value.Enterprise?)
    ensures !VerifyCardano(b, p).ok
    ensures (&& DecodeSign1(p, b.signatureHex.s).Ok?
             && DecodePubKey(p, b.keyHex.s).Ok?
             && var sign1 := DecodeSign1(p, b.signatureHex.s).value;
                p.ed25519Verify(Cose.ToBeSigned(sign1.protectedHeader, sign1.payload), sign1.signature,
                                DecodePubKey(p, b.keyHex.s).value) == Ok(true))
            ==> VerifyCardano(b, p) == Reject(CardanoAddress.Unsupported)
  {
    CardanoAcceptance(b, p);
  }

  // ---------------------------------------------------------------------------
  // Cardano: what an accepted proof binds

  /** Two accepted proofs with the same COSE_Sign1 declare the same payload bytes. */
  lemma CardanoPayloadBound(b1: Bundle, b2: Bundle, p: Primitives)
    requires VerifyCardano(b1, p).ok && VerifyCardano(b2, p).ok
    requires b1.signatureHex == b2.signatureHex
    ensures p.hexDecode(b1.payloadHex.s) == p.hexDecode(b2.payloadHex.s)
  {
    CardanoAcceptance(b1, p);
    CardanoAcceptance(b2, p);
  }

  /** Two accepted proofs with the same COSE_Key name addresses with the same
      payment key hash. */
  lemma CardanoAddressBound(b1: Bundle, b2: Bundle, p: Primitives)
    requires VerifyCardano(b1, p).ok && VerifyCardano(b2, p).ok
    requires b1.keyHex == b2.keyHex
    ensures CardanoAddress.PaymentKeyHash(p.AddressParsers(), CardanoAddressField(b1).s)
            == CardanoAddress.PaymentKeyHash(p.AddressParsers(), CardanoAddressField(b2).s)
  {
    CardanoAcceptance(b1, p);
    CardanoAcceptance(b2, p);
  }

  // ---------------------------------------------------------------------------
  // Solana

  /** The conditions of a valid Solana proof: the signature verifies over the
      UTF-8 bytes of the payload, and the public key text is the address text. */
  ghost predicate SolanaProofHolds(b: Bundle, p: Primitives) {
    && SolanaFieldsPresent(b)
    && p.base58Decode(b.signatureBase58.s).Ok?
    && p.base58Decode(b.pubkeyBase58.s).Ok?
    && p.ed25519Verify(p.utf8Encode(b.payloadUtf8.s), p.base58Decode(b.signatureBase58.s).value,
                       p.base58Decode(b.pubkeyBase58.s).value) == Ok(true)
    && b.pubkeyBase58.s == SolanaAddressField(b).s
  }

  lemma SolanaAcceptance(b: Bundle, p: Primitives)
    ensures VerifySolana(b, p).ok <==> SolanaProofHolds(b, p)
    ensures VerifySolana(b, p).ok ==> VerifySolana(b, p) == Accept
  {
    if SolanaFieldsPresent(b) {
      var r := CheckSolana(p, b.payloadUtf8.s, b.signatureBase58.s, b.pubkeyBase58.s, SolanaAddressField(b).s);
      assert VerifySolana(b, p) == Catch(r, SolanaFallback);
    }
  }

  /** A missing field is reported before any decoding. */
  lemma SolanaMissingFieldsFirst(b: Bundle, p: Primitives, q: Primitives)
    requires !SolanaFieldsPresent(b)
    ensures VerifySolana(b, p) == VerifySolana(b, q) == Reject(MissingSolana)
  {
  }

  /** A bad signature is reported before a key/address mismatch; a thrown error
      by its message, or "Verify failed" if it has none. */
  lemma SolanaCheckOrder(b: Bundle, p: Primitives)
    requires SolanaFieldsPresent(b)
    ensures var s := p.base58Decode(b.signatureBase58.s);
            var k := p.base58Decode(b.pubkeyBase58.s);
            var v := VerifySolana(b, p);
            && (s.Throw? ==> v == Reject(MessageOr(s.error, SolanaFallback)))
            && (s.Ok? && k.Throw? ==> v == Reject(MessageOr(k.error, SolanaFallback)))
            && (s.Ok? && k.Ok? ==>
                  var sigCheck := p.ed25519Verify(p.utf8Encode(b.payloadUtf8.s), s.value, k.value);
                  && (sigCheck.Throw? ==> v == Reject(MessageOr(sigCheck.error, SolanaFallback)))
                  && (sigCheck == Ok(false) ==> v == Reject(InvalidSignature))
                  && (sigCheck == Ok(true) && b.pubkeyBase58.s != SolanaAddressField(b).s
                      ==> v == Reject(PubkeyAddressMismatch)))
  {
  }

  /** Replacing the address of an accepted Solana proof by any other text fails
      with a key/address mismatch. */
  lemma SolanaAddressMustBePubkey(b: Bundle, p: Primitives, other: string)
    requires VerifySolana(b, p).ok
    requires other != "" && other != b.pubkeyBase58.s
    ensures VerifySolana(b.(addressBase58 := Str(other)), p) == Reject(PubkeyAddressMismatch)
  {
    SolanaAcceptance(b, p);
  }

  // ---------------------------------------------------------------------------
  // Reasons

  /** Every reason the verifier states itself. */
  const FixedReasons: set<string> := {
    UnknownFormat, MissingCardano, MissingSolana, InvalidSignature, KeyHashMismatch,
    PayloadMismatch, PubkeyAddressMismatch, Cose.BadSign1, Cose.MalformedSign1, Cose.BadKey,
    Cose.MissingPubKey, CardanoAddress.Unsupported, CardanoAddress.NoKeyHash }

  /** Primitives that never throw. */
  ghost predicate NonThrowing(p: Primitives) {
    && (forall s :: p.base58Decode(s).Ok?)
    && (forall bs :: p.cborDecode(bs).Ok?)
    && (forall m, s, k :: p.ed25519Verify(m, s, k).Ok?)
    && (forall t :: p.addressFromBech32(t).Ok?)
    && (forall bs :: p.addressFromBytes(bs).Ok?)
  }

  /** When no library primitive throws, every rejection reason comes from the
      verifier's own closed set. */
  lemma ReasonsClosed(b: Bundle, p: Primitives)
    requires NonThrowing(p)
    ensures Verify(b, p).ok || Verify(b, p).reason.value in FixedReasons
  {
    match Classify(b)
    case Unknown =>
    case Cardano =>
      if CardanoFieldsPresent(b) {
        var sign1 := DecodeSign1(p, b.signatureHex.s);
        if sign1.Ok? {
          var pub := DecodePubKey(p, b.keyHex.s);
          if pub.Ok? {
            CardanoCheckOrder(b, p);
          }
        }
      }
    case Solana =>
      if SolanaFieldsPresent(b) {
        SolanaCheckOrder(b, p);
      }
  }
}
